=== FILE: README.md ===
# A model of the social-network backend's request logic

The service is a small social network behind a REST API. Users register,
sign in for a bearer token that lives one day, edit their profile and
password, keep a directed friend list, write posts, read feeds, and like
or dislike posts. There is also a read-only directory of countries. Every
handler opens with the same session gate. Profiles, posts, feeds and
reactions are guarded by the same visibility rule: the viewer is the
target, or the target is public, or the target has listed the viewer as
a friend.

The model states each handler as a pure function
`(request, store, now) -> (outcome, store)`:

- `Store.Store` holds the users, tokens, friend edges, posts, marks and
  countries.
- `Outcomes.Outcome` is a payload, an error response (status and
  reason), or `Crash`. `Crash` stands for an uncaught exception: `one()`
  finding no row, an insert that breaks a unique key, reading a field of
  `None` (the own-profile branch of `get_profile` when the caller's row
  is missing), or `one_or_none()` meeting two rows (the remove handler's
  `LIKE` lookup, `Friends.UnfriendAsWritten`).
- `Store.Valid` is the store invariant that every handler keeps:
  - logins, emails and phones are unique;
  - tokens, edges, posts and marks refer to existing rows;
  - there is one edge per ordered pair and one mark per (post, login);
  - each post's counters equal the numbers of its likes and dislikes.
  Under `Valid`, no handler crashes except where the source has no guard.
- The password hash, the generated ids and the clock are parameters.

Modules follow the source:

- `Header`, `Session`: `str.split()` on the `Authorization` header, and
  the token gate.
- `Validators`: validators.py.
- `Store`: the tables and the crud.py transitions.
- `Listing`: `sorted` and the slices the listings use.
- `Visibility`: the access rule and the profile and post handlers.
- `Reactions`, `Friends`, `Feeds`, `Accounts`, `Countries`: the rest of
  main.py.

## Model

| member | source | states |
|---|---|---|
| Header.SplitJoin | main.py:136-142 | Splitting words joined by single spaces gives back exactly those words, so the header's word count is the number of words it was built from |
| Header.SplitLeadingWord | main.py:136-142 | A word followed by nothing or by whitespace splits off as the first word, and the rest splits on its own |
| Header.TwoWords | main.py:136-142 | A header of two words separated by a space splits into exactly those two words, whatever the first word is |
| Header.SplitSkipsSpaces | main.py:136 | Leading whitespace of any length does not change the words a string splits into |
| Header.PaddedTwoWords | main.py:136-142 | Two words with any whitespace before, between and after them split into exactly those two words |
| Session.BearerToken | main.py:132-142 | A token is extracted exactly when the header is present and splits into exactly two words, and the token is the second of them, `token[1]` |
| Session.AnySchemeWord | main.py:136-142 | The first word of a two-word header is never checked: any scheme word yields the second word as the token |
| Session.PaddedHeader | main.py:136-142 | Any whitespace before, between and after the two words of a header leaves the token as the second word |
| Session.Authenticate | main.py:132-152 | Admits exactly when the presented token is known and younger than a day, with the token's login. A known but expired token is refused and deleted. Any other refusal leaves the store unchanged |
| Session.ExpiryBoundary | main.py:149-152 | A token exactly one day old is refused and deleted; one second younger, it is accepted |
| Session.ExpiredStaysRefused | main.py:149-152 | Once the gate refuses a header, presenting it again at any later time is refused too |
| Session.AuthenticateKeepsValid | main.py:149-152 | The gate keeps the store invariant, and in a valid store an admitted session belongs to a registered user |
| Session.SignIn | main.py:107-126 | Unknown login gives 401 invalid_login_password; a malformed password gives 400; a wrong password gives 401 invalid_login_password. Success stores exactly one new token for the login, issued now. Every failure leaves the store unchanged, and the invariant is kept |
| Session.SignInSessionLasts | main.py:123-126 | A fresh token authenticates the user under any scheme word for strictly less than a day after sign-in, and from then on it is refused and the store is back to what it was |
| Session.RevokedLoginRefused | crud.py:168-174 | After all tokens of a login are deleted, no header authenticates as that login; sessions of other logins authenticate as before |
| Validators.AnyChar | validators.py:18-22 | The generator scan `any(p(c) for c in s)` is true exactly when some character satisfies `p` |
| Validators.FullMatchPlus | validators.py:10 | A full match of a one-or-more character-class pattern means the string is non-empty and every character is in the class |
| Validators.ValidLogin | validators.py:7-12 | Accepts exactly the strings of 1 to 30 characters drawn from `[a-zA-Z0-9-]` |
| Validators.ValidPassword | validators.py:15-24 | Accepts exactly the strings of 6 to 100 characters that contain a digit, a lower-case and an upper-case ASCII letter |
| Validators.ValidCountryCode | validators.py:33-38 | Accepts exactly the strings of two ASCII letters, of either case |
| Validators.ValidPhone | validators.py:41-48 | Accepts the empty string, or `+` followed by at least one digit with at most 20 characters in all |
| Validators.ValidTags | validators.py:77-80 | Accepts exactly the lists whose every tag has 1 to 20 characters, so the empty list is valid |
| Validators.ValidData | validators.py:83-96 | Registration data is valid exactly when all six field checks pass, where an absent phone or image passes |
| Validators.ValidUpdateProfile | validators.py:138-145 | A profile update is valid exactly when every field that was sent passes its check; absent fields and `isPublic` are not checked |
| Validators.ViewOf | validators.py:118-135 | The view keeps login, email, country and visibility; it has a phone exactly when the user has one, and an image exactly when the user has one |
| Validators.ProfileOf | validators.py:99-115 | The registration response carries the same fields as the view, with phone and image present exactly when the user has them |
| Validators.ViewLosesOnlyPassword | validators.py:118-135 | The user can be rebuilt from the view and the password alone, so the view drops the password and nothing else |
| Validators.ViewHidesPassword | validators.py:118-135 | Users that differ only in their password have the same view, so the password never leaks through the view |
| Store.First | crud.py:27-31 | `one_or_none` on a filtered table: the index of the first matching row, with no match before it; or none, when no row matches |
| Store.FindUser | crud.py:27-31 | The user found has the login asked for; none is found only when no user has it |
| Store.FindPost | crud.py:63-67 | The post found has the id asked for and is the first with it; none is found only when no post has it |
| Store.FindEdge | crud.py:57-61 | The edge found joins exactly the two logins asked for; none is found only when no such edge exists |
| Store.FindMark | crud.py:75-79 | The mark found is the first of that login on that post; none is found only when no such mark exists |
| Store.FriendsOf | crud.py:51-55 | The edges of an owner are exactly the stored edges with that owner, each as many times as it is stored and no other edge |
| Store.PostsBy | crud.py:69-73 | The posts of an author are exactly the stored posts with that author, each as many times as it is stored and no other post |
| Store.UpdateUser | crud.py:81-99 | Login, email and password are untouched. Country and visibility change exactly when they were sent. A non-empty phone or image that was sent is stored. An empty phone or image, whether sent or already stored, becomes absent |
| Store.UpdateUserIdempotent | crud.py:81-99 | Applying the same profile update twice has the effect of applying it once |
| Store.SetPassword | crud.py:101-107 | The new digest is stored and every other field of the user is unchanged |
| Store.Adjust | crud.py:109-135 | A counter step keeps the number of posts and their ids, and changes nothing of any post except its two counters |
| Store.CounterStepsExact | crud.py:109-135 | Each of the four counter steps changes exactly one counter of exactly the post with that id, by exactly one, and leaves every other post as it was |
| Store.ChangeMark | crud.py:137-142 | Flipping negates `liked` of the matched mark and leaves every other mark unchanged |
| Store.DeleteTokensByLogin | crud.py:168-174 | Exactly the tokens of that login are removed; every other token remains with its value |
| Listing.SortByIsStable | main.py:410-413 | The insertion sort is a stable sort: ordered by the key and keeping tied elements in input order |
| Listing.SortByPermutes | main.py:410-413 | Sorting keeps every element with its multiplicity |
| Listing.StableSortUnique | main.py:410-413 | Any two stable sorts of the same list by the same total preorder are equal, so `sorted` has a single possible result |
| Listing.PageWindow | main.py:414-415 | With non-negative bounds a page skips `offset` elements and keeps `min(limit, max(0, n - offset))` of them, in order |
| Listing.ValidatedPage | validators.py:59-68 | Bounds that pass the limit and offset checks cut at most 50 elements: the window of length `min(limit, max(0, n - offset))` that starts at `offset` |
| Listing.NegativeLimitDropsLast | main.py:549-550 | Without validation a limit of -1 does not give an empty page: it drops only the last element |
| Listing.NegativeOffsetTakesLast | main.py:549-550 | Without validation an offset of -1 starts from the last element |
| Visibility.AnyFriendIs | main.py:285-287 | The scan over an owner's edges is true exactly when some edge names the viewer as the friend |
| Visibility.ScanIsListed | main.py:285-287 | Scanning the owner's friend list finds the viewer exactly when the owner has an edge to the viewer |
| Visibility.Permits | main.py:276-293 | The handlers' three-way branch grants access exactly when the access rule holds |
| Visibility.OnlyTargetsEdgeCounts | main.py:285-293 | An edge from the viewer to a private target grants nothing; only an edge from the target to the viewer does |
| Visibility.UserNamed | crud.py:27-31 | The user returned has the login asked for and is stored; none is returned exactly when no user has that login |
| Visibility.GetProfile | main.py:249-297 | Refused sessions get 401 invalid_token. Otherwise the view is returned exactly when the user exists and the viewer may see them; an unknown or hidden user gets the same 403. The viewer's own missing row crashes, which a valid store rules out |
| Visibility.GetPost | main.py:464-516 | Refused sessions get 401. An unknown post is a 404. When the author exists, the post is returned exactly when the viewer may see the author; otherwise the same 404 as for an unknown post. It crashes exactly when the post exists but its author does not. The store is unchanged |
| Reactions.React | main.py:703-723 | After a reaction the viewer's mark points in the reaction's direction. A reaction already in place changes nothing. No other (post, login) state, no table other than marks and posts, and no other post changes; of the post itself only the counters change |
| Reactions.ReactionTable | main.py:703-723 | The state machine on the counters: from no mark, one is added to the reaction's counter; the same direction again changes nothing; switching adds one to the new counter and takes one from the old |
| Reactions.ReactIdempotent | main.py:712-715 | Reacting twice in the same direction is reacting once |
| Reactions.CountUpdate | crud.py:137-142 | Replacing one mark moves it from its old class to its new one in the counts of every post |
| Reactions.AppendMarkKeepsValid | main.py:705-711 | Creating a mark where none exists and incrementing the matching counter keeps the invariant |
| Reactions.FlipMarkKeepsValid | main.py:716-723 | Flipping a mark, adding one to the new counter and taking one from the old keeps the invariant |
| Reactions.AppendKeepsCounters | main.py:705-711 | After a new mark is recorded and counted on its post, every post's counters still equal its numbers of likes and dislikes |
| Reactions.FlipKeepsCounters | main.py:716-723 | After a mark is flipped and one unit moves between its post's counters, every post's counters still equal its numbers of likes and dislikes |
| Reactions.ReactKeepsValid | main.py:703-723 | A reaction on an existing post keeps at most one mark per (post, login) and keeps each counter equal to its mark count |
| Reactions.CountersStayNonNegative | main.py:703-723 | After a reaction in a valid store, no like or dislike counter is negative |
| Reactions.ReactTo | main.py:643-723 | Refused sessions get 401. An unknown post is a 404. A missing author crashes, and only then. A viewer who may see the author reacts and gets the post as stored afterwards; anyone else gets the same 404 and the store is unchanged. A valid store stays valid and never crashes |
| Reactions.ReplyShowsCounts | main.py:708-711 | The post a successful reaction returns in a valid store has counters equal to its numbers of likes and dislikes |
| Reactions.LikePost | main.py:617-723 | A successful like comes from an admitted session and leaves the viewer's mark liked. The counters returned equal the mark counts, and the invariant is kept without crashing |
| Reactions.DislikePost | main.py:726-832 | The mirror image of a like: a successful dislike leaves the viewer's mark disliked, with the counters returned equal to the mark counts |
| Reactions.RepeatedReactionIsNoOp | main.py:712-715 | Sending the same reaction again with the same credentials at the same time returns the same answer and leaves the store as the first request left it |
| Friends.RemoveAt | crud.py:176-178 | Deleting the row at one position shortens the table by one and keeps the other rows in order |
| Friends.RemoveAtKeepsValid | crud.py:176-178 | Deleting any one friend edge keeps the store invariant: the remaining edges still join registered users and stay one per ordered pair |
| Friends.ListedIsFound | crud.py:57-61 | The lookup finds an edge exactly when the owner has listed that friend |
| Friends.AddFriend | main.py:300-338 | Refused sessions get 401 with the store the gate leaves. An admitted caller gets what `Befriend` gives for that caller. The invariant is kept |
| Friends.Befriend | main.py:325-338 | An unknown login is a 404 with the store unchanged. For a known login the answer is ok and the edge is listed afterwards: an existing edge is left alone, otherwise one edge stamped with the current time is appended. The invariant is kept when the caller is registered |
| Friends.RemoveFriend | main.py:341-372 | Refused sessions get 401 with the store the gate leaves. An admitted caller gets what `Unfriend` gives for that caller. The invariant is kept |
| Friends.Unfriend | main.py:366-372 | The answer is always ok and only the friend table changes. An absent edge leaves the store unchanged. The table shrinks by one exactly when the edge existed, and every other edge is kept. In a valid store the edge is gone afterwards and the invariant holds |
| Friends.AddThenRemove | main.py:325-372 | Adding a new friend and removing them again restores the store exactly |
| Friends.AddTwice | main.py:331-334 | Adding the same friend twice is adding once: the second add changes nothing |
| Friends.EdgeGrantsAndRevokesView | main.py:285-293 | Adding an edge from a private owner lets that friend see the owner, and removing it takes that away again |
| Friends.ListFriends | main.py:375-400 | Refused sessions get 401 with the store the gate leaves. An admitted caller gets the `FriendList` answer for that caller, and the store is unchanged |
| Friends.FriendList | main.py:402-416 | A limit outside 0..50 or a negative offset is a 400 with reason invalid_token. Otherwise the result has `min(limit, max(0, n - offset))` lines for the caller's `n` edges. Each line names a friend the caller has listed, newest first, and the page is the one any stable newest-first sort of the caller's edges gives |
| Friends.NewestFirstPage | main.py:410-416 | The page of a friend list has `min(limit, max(0, n - offset))` lines, each made from one of the list's edges, newest first. It equals the page cut from any stable newest-first sort of the list |
| Friends.NewerFirstSort | main.py:410-413 | Sorting a friend list newest first keeps its length and its edges, orders them by time added, and is the only stable sort of the list |
| Friends.PlainLikeIsEquality | crud.py:57-61 | A `LIKE` pattern without `%` or `_` matches exactly the string equal to it |
| Friends.PercentMatchesAll | crud.py:57-61 | The pattern `%` matches every string |
| Friends.LoginsArePlain | validators.py:7-12 | A valid login contains no `LIKE` wildcard |
| Friends.PlainLookupIsExact | crud.py:57-61 | With wildcard-free logins, the `LIKE` lookup finds the same edge as exact comparison |
| Friends.RemoveFriendAsWritten | main.py:341-372 | The remove handler as written: refused sessions get 401, and an admitted caller gets what `UnfriendAsWritten` gives. The invariant is kept |
| Friends.UnfriendAsWritten | main.py:366-372 | The removal with a `LIKE` lookup. It crashes exactly when two of the caller's edges match the pattern. Otherwise it answers ok and deletes the single match, if any, keeping every edge that does not match; no other table changes. Deleting that edge keeps the invariant |
| Friends.UnfriendAgreesOnPlainLogins | main.py:366-372 | For a caller and a body login without wildcards, in a store with one edge per pair, the removal as written and the exact one give the same answer and store |
| Friends.AsWrittenAgreesOnPlainLogins | main.py:366-372 | In a valid store of validated logins, the handler as written and the corrected one agree on every login without wildcards |
| Friends.WildcardRemovesAnotherFriend | main.py:366-372 | With alice listing bob, the body login `b%` deletes the edge to bob as written, while exact matching leaves the store unchanged |
| Feeds.CreatePost | main.py:419-461 | Refused sessions get 401. Bad content or tags are a 400 with reason invalid_token. An admitted request with valid fields crashes exactly when its id is already in use, with the store unchanged. Otherwise the post with the caller as author, the current time and zero counters is appended and returned, and the invariant is kept |
| Feeds.NoMarksYet | main.py:456-458 | A post id that no mark names has zero likes and zero dislikes counted |
| Feeds.NewPostKeepsValid | main.py:456-458 | Appending a post by a registered author, with an unused id and zero counters, keeps the invariant |
| Feeds.AppendPostKeepsCounters | main.py:456-458 | A new post with zero counters keeps every post's counters equal to its mark counts, since no mark names its fresh id |
| Feeds.Timeline | main.py:546-548 | An author's timeline holds exactly their stored posts and is the stable newest-first sort of them |
| Feeds.TimelineIsNewestFirst | main.py:546-548 | A timeline is ordered by creation time, newest first |
| Feeds.MyFeed | main.py:519-553 | An admitted caller always gets ok. Only their own posts are listed. With non-negative bounds the page is the timeline's window at `offset` of length `min(limit, max(0, n - offset))` |
| Feeds.PageWithin | main.py:549-550 | A page holds only elements of the list it cuts, and with non-negative bounds it is the window at `offset` |
| Feeds.Feed | main.py:556-614 | Refused sessions get 401. An unknown author is a 404 with reason invalid_token. Access is granted exactly when the viewer may see the author, and a hidden author is a 404 with reason invalid_data. The caller's own feed is cut; another author's visible timeline is returned whole. It never crashes |
| Feeds.OwnFeedIsMyFeed | main.py:595-600 | Asking for one's own feed by login gives the same answer as asking for one's own feed |
| Feeds.OthersFeedIsWhole | main.py:602-614 | The feed of another visible author ignores `limit` and `offset` and returns the whole timeline |
| Accounts.AnyClash | main.py:88-92 | The scan finds a conflict exactly when some registered user has the same login, the same email, or the same phone when a phone is given |
| Accounts.Register | main.py:83-104 | A clash with any user is a 409, checked before validation. Invalid data is a 400. Success happens exactly when there is no clash and the data is valid; it appends the user with the hashed password and returns the request's profile. It never crashes and keeps the invariant |
| Accounts.NewUserKeepsValid | main.py:98-102 | Appending a user who clashes with nobody keeps the invariant |
| Accounts.RegisterTwiceConflicts | main.py:88-92 | A second registration with the same data is a 409 and changes nothing |
| Accounts.RegisterThenSignIn | main.py:98-126 | After a successful registration the user signs in with the password sent |
| Accounts.GetMyProfile | main.py:129-157 | Refused sessions get 401. Otherwise the caller gets their view exactly when their row is stored, and it crashes exactly when the row is missing, which a valid store rules out |
| Accounts.OwnProfileByLogin | main.py:276-279 | Asking for one's own profile by login gives the same answer as asking for one's own profile |
| Accounts.FindPhone | crud.py:33-37 | A user with the phone is found exactly when some user holds it |
| Accounts.FindCountry | crud.py:15-19 | A country is found exactly when one has that code, and the one found has it |
| Accounts.PatchMyProfile | main.py:160-206 | The checks run in source order. Fields of the wrong shape are a 400. An unknown country is a 400. A phone held by anyone, the caller included, is a 409 invalid_unique with the store unchanged. Otherwise, if the caller's row is missing it crashes, and if not, only that row changes, by the profile update, and the new view is returned. The invariant is kept without crashing |
| Accounts.UpdatedUserKeepsValid | main.py:195-206 | Updating a user's profile with a phone nobody holds keeps the invariant |
| Accounts.PatchedPhoneIsOwn | main.py:195-206 | A phone the patch stores was free before; afterwards the caller is the one user holding it |
| Accounts.UpdatePassword | main.py:209-246 | Refused sessions get 401. A malformed new password is a 400. A missing caller crashes. A wrong old password is a 403 with the store unchanged. Success stores the new digest and deletes every token of the caller |
| Accounts.NewPasswordKeepsValid | main.py:244-245 | Storing a new digest and deleting the user's tokens keeps the invariant |
| Accounts.PasswordChangeEndsSessions | main.py:244-246 | After a password change, the header that made it no longer authenticates and the new password signs in. The old password is refused when its digest differs |
| Countries.StrLeTotal | crud.py:10 | Any two codes are ordered one way or the other |
| Countries.StrLeTransitive | crud.py:10 | The code order is transitive |
| Countries.StrLeAntisymmetric | crud.py:10 | Codes tied in the order are equal |
| Countries.ByCodeIsTotalPreorder | crud.py:9-13 | Ordering by code is a total preorder |
| Countries.Directory | crud.py:9-13 | The directory holds exactly the stored countries, ordered by code, and is the stable sort of the table by code |
| Countries.InRegions | main.py:61 | The filter keeps exactly the countries whose region is one of those asked for, each as many times as in the input; a country without a region never matches |
| Countries.InRegionsKeepsOrder | main.py:61 | Filtering a list ordered by code keeps it ordered |
| Countries.ListCountries | main.py:48-64 | No region, or the one empty region, lists every country. A region outside the accepted names is a 400. Otherwise exactly the countries in the regions asked for are listed, each as many times as it is stored. The result is always ordered by code |
| Countries.FilteredDirectory | main.py:60-64 | The filtered directory holds exactly the stored countries of the regions asked for, each as many times as it is stored, ordered by code |
| Countries.GetCountry | main.py:67-80 | A code of the wrong shape is a 400. A well-formed code no country has is a 404 invalid_alpha2. Otherwise the answer is a stored country with that code |
| Countries.ListedCountriesCanBeFetched | main.py:48-80 | Every listed country with a well-formed code can be fetched by that code |

## Left out

- HTTP routing and JSON encoding are not modelled. Request parsing and
  dependency injection are not modelled. A response is an `Outcome`.
- The `RequestValidationError` handler and the `ping` endpoint are not
  modelled. Neither holds logic.
- SQLAlchemy sessions, commits and the database engine are not modelled.
  The tables are sequences in insertion order, which is also the order
  assumed for queries without `ORDER BY`.
- `one_or_none()` over more than one row raises in the source. The
  lookups return the first match instead. For users, tokens, edges, posts
  and marks `Store.Valid` rules the duplicates out. The remove handler's
  `LIKE` lookup is the exception: there the raise is modelled.
- Countries.GetCountry: the countries table is assumed to hold each code
  once. `alpha2` has no unique constraint (models.py:11), so two rows with
  one code would make `one_or_none()` raise in `get_country`
  (main.py:73-74) and in the profile patch's country check (main.py:190).
  `Countries.GetCountry` and `Accounts.FindCountry` return the first such
  row instead, and `Store.Valid` says nothing about the countries.
- `get_hash` (SHA-256) is a parameter `hash`. `uuid4()` is a parameter:
  the token value and the post id. `time()` and `datetime.now()` are the
  parameter `now`.
- Timestamps are integer seconds. The float `creation_time` and the
  `strptime` parsing of `addedAt` and `createdAt` are not modelled. An
  integer key is compared instead.
- `DAY_TIME` is the constant 86400. `ENUM`, the accepted region names,
  is the parameter `known`. Both come from a `const` module that is not
  part of this model.
- The pydantic field constraints of schemas.py are not modelled. Inputs
  they reject before a handler runs are simply not sent. Their image limit
  is 100 (schemas.py:22), whereas `validate_image` allows 200; the model
  follows `validate_image`.
- The `LIKE` lookup of the add handler (main.py:331, crud.py:57-61) is
  modelled as equality (`Store.FindEdge`). The friend's login was first
  looked up exactly among the registered users (main.py:325-329), and a
  registered login passed `validate_login`, so it holds no wildcard;
  `Friends.PlainLookupIsExact` proves both lookups find the same edge
  for such logins.
- The `LIKE` lookup of marks is modelled as equality (crud.py:75-79 and
  crud.py:137-142). Its post id is a generated uuid, and its login comes
  from a stored token, so neither holds a wildcard. Backslash escapes in
  `LIKE` patterns are not modelled.
- String order is by character code, which the default collation is not
  guaranteed to follow. Character classes are ASCII, so Unicode digits
  and Unicode whitespace are not modelled.
- Concurrency is not modelled. In the source the mark, counter and
  re-read steps are separate commits, so concurrent reactions could lose
  updates. The model is sequential.
- Feeds.MyFeed: states the window only for non-negative bounds. For
  negative bounds it states membership, with
  `Listing.NegativeLimitDropsLast` and `Listing.NegativeOffsetTakesLast`
  covering the Python slice cases.
- Reactions.LikePost: the payload is the stored post after the reaction.
  Its counters are related to the marks only in a valid store.

## Findings

| source | as written | input that shows it | evidently intended | confidence | as-written member | corrected member |
|---|---|---|---|---|---|---|
| main.py:366-372, crud.py:57-61 | The remove handler finds the edge with SQL `LIKE`, using the body's login as the pattern. The body's schema pattern is not anchored at the end, so `%` and `_` get through | alice has listed bob and removes `b%`: the edge to bob is deleted. With two friends matching, `one_or_none()` raises | delete only the edge to the friend with exactly that login | medium, not executed | Friends.RemoveFriendAsWritten, Friends.UnfriendAsWritten, Friends.WildcardRemovesAnotherFriend | Friends.RemoveFriend, Friends.Unfriend, Friends.AsWrittenAgreesOnPlainLogins |

=== FILE: accounts.dfy ===
/**
 * Accounts: `post_register_a_user`, `get_my_profile`, `patch_my_profile`
 * and `update_my_password`. Registration and the profile patch keep
 * logins, emails and phones unique; a password change ends every session
 * of the user.
 */
module Accounts {
  import opened Outcomes
  import opened Store
  import opened Session
  import opened Visibility
  import Validators

  /** A registered user that the request would collide with: same login,
      same email, or the same phone when the request has one. */
  predicate Clashes(req: User, u: User) {
    req.login == u.login || req.email == u.email || (req.phone.Some? && req.phone == u.phone)
  }

  function AnyClash(req: User, users: seq<User>): (r: bool)
    ensures r <==> exists i :: 0 <= i < |users| && Clashes(req, users[i])
  {
    if users == [] then false
    else
      assert forall i :: 1 <= i < |users| ==> users[i] == users[1..][i - 1];
      Clashes(req, users[0]) || AnyClash(req, users[1..])
  }

  /**
   * `post_register_a_user`: a collision with any registered user is a 409,
   * checked before the data is validated; invalid data is a 400;
   * otherwise the user is stored with the digest of the password, and the
   * profile of the request is returned.
   */
  function Register(req: User, s: Store, hash: string -> string): (r: Reply<Validators.Profile>)
    ensures (exists i :: 0 <= i < |s.users| && Clashes(req, s.users[i])) ==>
              r == Reply(Fail(Conflict, InvalidUnique), s)
    ensures (forall i :: 0 <= i < |s.users| ==> !Clashes(req, s.users[i])) && !Validators.ValidData(req) ==>
              r == Reply(Fail(BadRequest, InvalidData), s)
    ensures r.out.Ok? <==> (forall i :: 0 <= i < |s.users| ==> !Clashes(req, s.users[i])) && Validators.ValidData(req)
    ensures r.out.Ok? ==>
      && r.out.value == Validators.ProfileOf(req)
      && r.store == s.(users := s.users + [req.(password := hash(req.password))])
    ensures !r.out.Crash?
    ensures Valid(s) ==> Valid(r.store)
  {
    if AnyClash(req, s.users) then Reply(Fail(Conflict, InvalidUnique), s)
    else if !Validators.ValidData(req) then Reply(Fail(BadRequest, InvalidData), s)
    else
      var u := req.(password := hash(req.password));
      NewUserKeepsValid(s, u);
      Reply(Ok(Validators.ProfileOf(req)), s.(users := s.users + [u]))
  }

  /** Adding a user that collides with nobody keeps the store invariant. */
  lemma NewUserKeepsValid(s: Store, u: User)
    requires forall i :: 0 <= i < |s.users| ==> !Clashes(u, s.users[i])
    ensures Valid(s) ==> Valid(s.(users := s.users + [u]))
  {
    var s' := s.(users := s.users + [u]);
    assert forall k :: 0 <= k < |s.users| ==> s'.users[k] == s.users[k];
    assert forall l :: HasUser(s.users, l) ==> HasUser(s'.users, l);
  }

  /** A second registration with the same data is a conflict. */
  lemma RegisterTwiceConflicts(req: User, s: Store, hash: string -> string)
    requires Register(req, s, hash).out.Ok?
    ensures Register(req, Register(req, s, hash).store, hash) == Reply(Fail(Conflict, InvalidUnique), Register(req, s, hash).store)
  {
    var s' := Register(req, s, hash).store;
    assert Clashes(req, s'.users[|s.users|]);
  }

  /** After registering, the user can sign in with the password sent. */
  lemma RegisterThenSignIn(req: User, s: Store, hash: string -> string, now: int, tokenValue: string)
    requires Valid(s)
    requires Register(req, s, hash).out.Ok?
    requires tokenValue !in s.tokens
    ensures SignIn(req.login, req.password, Register(req, s, hash).store, now, tokenValue, hash).out == Ok(tokenValue)
  {
    var s' := Register(req, s, hash).store;
    assert s'.users[|s.users|].login == req.login;
    assert FindUser(s'.users, req.login) == Some(|s.users|);
  }

  /** `get_my_profile`: the caller's view; the lookup uses `one()`, so a
      session whose user is gone raises. */
  function GetMyProfile(header: Option<string>, s: Store, now: int): (r: Reply<Validators.UserView>)
    ensures var g := Authenticate(header, s, now);
      g.Refuse? ==> r == Reply(Denied(), g.store)
    ensures var g := Authenticate(header, s, now);
      g.Admit? ==>
        && r.store == s
        && (r.out.Crash? <==> !HasUser(s.users, g.login))
        && (r.out.Ok? <==> HasUser(s.users, g.login))
        && (r.out.Ok? ==> r.out.value == Validators.ViewOf(UserNamed(s, g.login).value))
    ensures Valid(s) ==> !r.out.Crash? && Valid(r.store)
    ensures !r.out.Fail? || r.out == Fail(Unauthorized, InvalidToken)
  {
    AuthenticateKeepsValid(header, s, now);
    match Authenticate(header, s, now)
    case Refuse(s') => Reply(Denied(), s')
    case Admit(viewer) =>
      match UserNamed(s, viewer)
      case None => Reply(Crash, s)
      case Some(u) => Reply(Ok(Validators.ViewOf(u)), s)
  }

  /** The caller's own profile, asked for by login, is the same view. */
  lemma OwnProfileByLogin(header: Option<string>, s: Store, now: int)
    requires Authenticate(header, s, now).Admit?
    ensures GetProfile(header, Authenticate(header, s, now).login, s, now) == GetMyProfile(header, s, now)
  {
  }

  /** `get_user_by_phone`: some user already holds this phone. */
  predicate PhoneTaken(users: seq<User>, phone: string) {
    exists i :: 0 <= i < |users| && users[i].phone == Some(phone)
  }

  function FindPhone(users: seq<User>, phone: string): (r: Option<nat>)
    ensures r.Some? <==> PhoneTaken(users, phone)
  {
    First(users, (u: User) => u.phone == Some(phone))
  }

  /** `get_country_by_alpha2`: some country has exactly this code. */
  predicate KnownCountry(countries: seq<Country>, code: string) {
    exists i :: 0 <= i < |countries| && countries[i].alpha2 == code
  }

  function FindCountry(countries: seq<Country>, code: string): (r: Option<nat>)
    ensures r.Some? ==> r.value < |countries| && countries[r.value].alpha2 == code
    ensures r.None? <==> !KnownCountry(countries, code)
  {
    First(countries, (c: Country) => c.alpha2 == code)
  }

  /**
   * `patch_my_profile`, in the source's order: fields of the wrong shape
   * are a 400; a country code missing from the countries table is a 400;
   * a phone that any user holds (the caller included) is a 409; otherwise
   * the fields that were sent are written and the new view is returned.
   */
  function PatchMyProfile(header: Option<string>, d: ProfileUpdate, s: Store, now: int): (r: Reply<Validators.UserView>)
    ensures var g := Authenticate(header, s, now);
      g.Refuse? ==> r == Reply(Denied(), g.store)
    ensures var g := Authenticate(header, s, now);
      g.Admit? ==>
        && (!Validators.ValidUpdateProfile(d) ==> r == Reply(Fail(BadRequest, InvalidData), s))
        && (Validators.ValidUpdateProfile(d) && d.countryCode.Some? && !KnownCountry(s.countries, d.countryCode.value) ==>
              r == Reply(Fail(BadRequest, InvalidData), s))
        && ((Validators.ValidUpdateProfile(d)
             && (d.countryCode.Some? ==> KnownCountry(s.countries, d.countryCode.value))
             && d.phone.Some? && PhoneTaken(s.users, d.phone.value)) ==>
              r == Reply(Fail(Conflict, InvalidUnique), s))
        && (r.out.Fail? ==> r.store == s)
        && (r.out.Ok? <==>
              && Validators.ValidUpdateProfile(d)
              && (d.countryCode.Some? ==> KnownCountry(s.countries, d.countryCode.value))
              && (d.phone.Some? ==> !PhoneTaken(s.users, d.phone.value))
              && HasUser(s.users, g.login))
        && (r.out.Crash? <==>
              && Validators.ValidUpdateProfile(d)
              && (d.countryCode.Some? ==> KnownCountry(s.countries, d.countryCode.value))
              && (d.phone.Some? ==> !PhoneTaken(s.users, d.phone.value))
              && !HasUser(s.users, g.login))
        && (r.out.Ok? ==>
              var i := FindUser(s.users, g.login).value;
              && r.store == s.(users := s.users[i := UpdateUser(s.users[i], d)])
              && r.out.value == Validators.ViewOf(UpdateUser(s.users[i], d)))
    ensures Valid(s) ==> !r.out.Crash? && Valid(r.store)
  {
    AuthenticateKeepsValid(header, s, now);
    match Authenticate(header, s, now)
    case Refuse(s') => Reply(Denied(), s')
    case Admit(viewer) =>
      if !Validators.ValidUpdateProfile(d) then Reply(Fail(BadRequest, InvalidData), s)
      else if d.countryCode.Some? && FindCountry(s.countries, d.countryCode.value).None? then
        Reply(Fail(BadRequest, InvalidData), s)
      else if d.phone.Some? && FindPhone(s.users, d.phone.value).Some? then
        Reply(Fail(Conflict, InvalidUnique), s)
      else
        match FindUser(s.users, viewer)
        case None => Reply(Crash, s)
        case Some(i) =>
          var u := UpdateUser(s.users[i], d);
          UpdatedUserKeepsValid(s, i, d);
          Reply(Ok(Validators.ViewOf(u)), s.(users := s.users[i := u]))
  }

  /** Rewriting a user's profile fields with a phone nobody holds keeps
      the store invariant. */
  lemma UpdatedUserKeepsValid(s: Store, i: nat, d: ProfileUpdate)
    requires i < |s.users|
    requires d.phone.Some? ==> !PhoneTaken(s.users, d.phone.value)
    ensures Valid(s) ==> Valid(s.(users := s.users[i := UpdateUser(s.users[i], d)]))
  {
    var u := UpdateUser(s.users[i], d);
    var s' := s.(users := s.users[i := u]);
    if Valid(s) {
      assert forall l :: HasUser(s.users, l) ==> HasUser(s'.users, l) by {
        forall l | HasUser(s.users, l)
          ensures HasUser(s'.users, l)
        {
          var k :| 0 <= k < |s.users| && s.users[k].login == l;
          assert s'.users[k].login == l;
        }
      }
      assert UsersUnique(s'.users);
    }
  }

  /** A phone the patch stores was free before it: afterwards exactly the
      caller holds it. */
  lemma PatchedPhoneIsOwn(header: Option<string>, d: ProfileUpdate, s: Store, now: int)
    requires Authenticate(header, s, now).Admit?
    requires PatchMyProfile(header, d, s, now).out.Ok?
    requires d.phone.Some? && d.phone.value != ""
    ensures var s' := PatchMyProfile(header, d, s, now).store;
      forall i :: 0 <= i < |s'.users| && s'.users[i].phone == d.phone ==>
        s'.users[i].login == Authenticate(header, s, now).login
  {
  }

  /**
   * `update_my_password`: a new password of the wrong shape is a 400; the
   * caller is looked up with `one()`; a wrong old password is a 403;
   * otherwise the digest of the new password is stored and every token of
   * the caller, the one used for this request included, is deleted.
   */
  function UpdatePassword(header: Option<string>, oldPassword: string, newPassword: string,
                          s: Store, now: int, hash: string -> string): (r: Reply<()>)
    ensures var g := Authenticate(header, s, now);
      g.Refuse? ==> r == Reply(Denied(), g.store)
    ensures var g := Authenticate(header, s, now);
      g.Admit? ==>
        && (!Validators.ValidPassword(newPassword) ==> r == Reply(Fail(BadRequest, InvalidData), s))
        && (r.out.Fail? && Validators.ValidPassword(newPassword) ==> r == Reply(Fail(Forbidden, InvalidLoginPassword), s))
        && (r.out.Crash? <==> Validators.ValidPassword(newPassword) && !HasUser(s.users, g.login))
        && (r.out.Ok? <==>
              && Validators.ValidPassword(newPassword)
              && HasUser(s.users, g.login)
              && hash(oldPassword) == UserNamed(s, g.login).value.password)
        && (r.out.Ok? ==>
              var i := FindUser(s.users, g.login).value;
              r.store == s.(users := s.users[i := SetPassword(s.users[i], hash(newPassword))],
                            tokens := DeleteTokensByLogin(s.tokens, g.login)))
    ensures Valid(s) ==> !r.out.Crash? && Valid(r.store)
  {
    AuthenticateKeepsValid(header, s, now);
    match Authenticate(header, s, now)
    case Refuse(s') => Reply(Denied(), s')
    case Admit(viewer) =>
      if !Validators.ValidPassword(newPassword) then Reply(Fail(BadRequest, InvalidData), s)
      else
        match FindUser(s.users, viewer)
        case None => Reply(Crash, s)
        case Some(i) =>
          if hash(oldPassword) != s.users[i].password then Reply(Fail(Forbidden, InvalidLoginPassword), s)
          else
            var s' := s.(users := s.users[i := SetPassword(s.users[i], hash(newPassword))],
                         tokens := DeleteTokensByLogin(s.tokens, viewer));
            NewPasswordKeepsValid(s, i, hash(newPassword), viewer);
            Reply(Ok(()), s')
  }

  lemma NewPasswordKeepsValid(s: Store, i: nat, digest: string, login: Login)
    requires i < |s.users|
    ensures Valid(s) ==>
      Valid(s.(users := s.users[i := SetPassword(s.users[i], digest)], tokens := DeleteTokensByLogin(s.tokens, login)))
  {
    var s' := s.(users := s.users[i := SetPassword(s.users[i], digest)], tokens := DeleteTokensByLogin(s.tokens, login));
    if Valid(s) {
      assert forall l :: HasUser(s.users, l) ==> HasUser(s'.users, l) by {
        forall l | HasUser(s.users, l)
          ensures HasUser(s'.users, l)
        {
          var k :| 0 <= k < |s.users| && s.users[k].login == l;
          assert s'.users[k].login == l;
        }
      }
    }
  }

  /**
   * After a password change the header that made it no longer
   * authenticates, the new password signs in, and the old one (when its
   * digest differs) is refused.
   */
  lemma PasswordChangeEndsSessions(header: Option<string>, oldPassword: string, newPassword: string,
                                   s: Store, now: int, hash: string -> string, later: int, tokenValue: string)
    requires Valid(s)
    requires Authenticate(header, s, now).Admit?
    requires UpdatePassword(header, oldPassword, newPassword, s, now, hash).out.Ok?
    ensures var login := Authenticate(header, s, now).login;
      var s' := UpdatePassword(header, oldPassword, newPassword, s, now, hash).store;
      && Authenticate(header, s', later).Refuse?
      && (tokenValue !in s'.tokens ==> SignIn(login, newPassword, s', later, tokenValue, hash).out.Ok?)
      && (hash(oldPassword) != hash(newPassword) ==>
            SignIn(login, oldPassword, s', later, tokenValue, hash).out == Fail(Unauthorized, InvalidLoginPassword)
            || SignIn(login, oldPassword, s', later, tokenValue, hash).out == Fail(BadRequest, InvalidData))
  {
    var login := Authenticate(header, s, now).login;
    var s' := UpdatePassword(header, oldPassword, newPassword, s, now, hash).store;
    var i := FindUser(s.users, login).value;
    RevokedLoginRefused(header, s, login, later);
    assert s'.users[i].login == login;
    assert FindUser(s'.users, login) == Some(i) by {
      assert forall k :: 0 <= k < |s.users| ==> s'.users[k].login == s.users[k].login;
    }
    assert Presented(header, s).Some?;
    assert s.tokens[Presented(header, s).value].login == login;
  }
}

=== FILE: countries.dfy ===
/**
 * The public country directory: `get_list_countries` and `get_country`.
 * The table is read ordered by the alpha-2 code; a region filter keeps the
 * countries whose region is one of those asked for.
 */
module Countries {
  import opened Outcomes
  import opened Store
  import opened Listing
  import Validators

  /** Lexicographic order on strings, character by character. */
  predicate StrLe(a: string, b: string)
    decreases |a|
  {
    a == [] || (b != [] && (a[0] < b[0] || (a[0] == b[0] && StrLe(a[1..], b[1..]))))
  }

  lemma {:induction false} StrLeTotal(a: string, b: string)
    ensures StrLe(a, b) || StrLe(b, a)
    decreases |a|
  {
    if a != [] && b != [] && a[0] == b[0] {
      StrLeTotal(a[1..], b[1..]);
    }
  }

  lemma {:induction false} StrLeTransitive(a: string, b: string, c: string)
    requires StrLe(a, b) && StrLe(b, c)
    ensures StrLe(a, c)
    decreases |a|
  {
    if a != [] && a[0] == b[0] && b[0] == c[0] {
      StrLeTransitive(a[1..], b[1..], c[1..]);
    }
  }

  /** Strings tied in the order are equal. */
  lemma {:induction false} StrLeAntisymmetric(a: string, b: string)
    requires StrLe(a, b) && StrLe(b, a)
    ensures a == b
    decreases |a|
  {
    if a != [] {
      StrLeAntisymmetric(a[1..], b[1..]);
      assert a == [a[0]] + a[1..] && b == [b[0]] + b[1..];
    }
  }

  /** `order_by(Countries.alpha2)`. */
  predicate ByCode(a: Country, b: Country) {
    StrLe(a.alpha2, b.alpha2)
  }

  lemma ByCodeIsTotalPreorder()
    ensures TotalPreorder(ByCode)
  {
    forall a: Country, b: Country
      ensures ByCode(a, b) || ByCode(b, a)
    {
      StrLeTotal(a.alpha2, b.alpha2);
    }
    forall a: Country, b: Country, c: Country | ByCode(a, b) && ByCode(b, c)
      ensures ByCode(a, c)
    {
      StrLeTransitive(a.alpha2, b.alpha2, c.alpha2);
    }
  }

  /** `get_countries`: the table ordered by code. */
  function Directory(countries: seq<Country>): (r: seq<Country>)
    ensures multiset(r) == multiset(countries)
    ensures forall i, j :: 0 <= i < j < |r| ==> StrLe(r[i].alpha2, r[j].alpha2)
    ensures forall sorted :: IsStableSortOf(sorted, countries, ByCode) ==> r == sorted
  {
    var r := SortBy(countries, ByCode);
    SortByPermutes(countries, ByCode);
    ByCodeIsTotalPreorder();
    SortByIsStable(countries, ByCode);
    assert forall sorted :: IsStableSortOf(sorted, countries, ByCode) ==> r == sorted by {
      forall sorted | IsStableSortOf(sorted, countries, ByCode)
        ensures r == sorted
      {
        StableSortUnique(sorted, r, countries, ByCode);
      }
    }
    r
  }

  /** The countries whose region is one of `regions`, in order. A country
      without a region never matches. */
  function InRegions(cs: seq<Country>, regions: seq<string>): (r: seq<Country>)
    ensures forall c :: c in r <==> c in cs && c.region.Some? && c.region.value in regions
    ensures forall c {:trigger multiset(r)[c]} :: multiset(r)[c] == if c.region.Some? && c.region.value in regions then multiset(cs)[c] else 0
    ensures |r| <= |cs|
  {
    if cs == [] then []
    else
      assert cs == [cs[0]] + cs[1..];
      (if cs[0].region.Some? && cs[0].region.value in regions then [cs[0]] else []) + InRegions(cs[1..], regions)
  }

  /** Ordered by code. */
  predicate CodeSorted(cs: seq<Country>) {
    forall i, j :: 0 <= i < j < |cs| ==> StrLe(cs[i].alpha2, cs[j].alpha2)
  }

  /** The tail of an ordered list is ordered and follows its head. */
  lemma SortedTail(cs: seq<Country>)
    requires cs != [] && CodeSorted(cs)
    ensures CodeSorted(cs[1..])
    ensures forall c :: c in cs[1..] ==> StrLe(cs[0].alpha2, c.alpha2)
  {
    var tail := cs[1..];
    forall i, j | 0 <= i < j < |tail|
      ensures StrLe(tail[i].alpha2, tail[j].alpha2)
    {
      assert tail[i] == cs[i + 1] && tail[j] == cs[j + 1];
    }
    forall c | c in tail
      ensures StrLe(cs[0].alpha2, c.alpha2)
    {
      var k :| 0 <= k < |tail| && tail[k] == c;
      assert cs[k + 1] == c;
    }
  }

  /** A country placed before an ordered list it precedes keeps it ordered. */
  lemma SortedCons(c: Country, rest: seq<Country>)
    requires CodeSorted(rest)
    requires forall d :: d in rest ==> StrLe(c.alpha2, d.alpha2)
    ensures CodeSorted([c] + rest)
  {
    var r := [c] + rest;
    forall i, j | 0 <= i < j < |r|
      ensures StrLe(r[i].alpha2, r[j].alpha2)
    {
      assert r[j] == rest[j - 1];
      if i == 0 {
        assert r[j] in rest;
      } else {
        assert r[i] == rest[i - 1];
      }
    }
  }

  /** A filtered list keeps the order of the list it filters. */
  lemma {:induction false} InRegionsKeepsOrder(cs: seq<Country>, regions: seq<string>)
    requires CodeSorted(cs)
    ensures CodeSorted(InRegions(cs, regions))
  {
    if cs != [] {
      SortedTail(cs);
      var rest := InRegions(cs[1..], regions);
      InRegionsKeepsOrder(cs[1..], regions);
      if cs[0].region.Some? && cs[0].region.value in regions {
        SortedCons(cs[0], rest);
      }
    }
  }

  /**
   * `get_list_countries`: without a region (or with the single empty
   * region) the whole directory; a region outside `known` (the set of
   * region names the service accepts) is a 400; otherwise the directory
   * filtered to those regions.
   */
  function ListCountries(region: Option<seq<string>>, known: set<string>, countries: seq<Country>): (r: Outcome<seq<Country>>)
    ensures region.None? || region == Some([""]) ==> r.Ok? && multiset(r.value) == multiset(countries)
    ensures region.Some? && region != Some([""]) ==>
      (r.Ok? <==> forall i :: 0 <= i < |region.value| ==> region.value[i] in known)
    ensures r.Fail? ==> r == Fail(BadRequest, InvalidData)
    ensures r.Ok? && region.Some? && region != Some([""]) ==>
      forall c :: c in r.value <==> c in countries && c.region.Some? && c.region.value in region.value
    ensures r.Ok? && region.Some? && region != Some([""]) ==>
      forall c {:trigger multiset(r.value)[c]} :: multiset(r.value)[c] ==
        if c.region.Some? && c.region.value in region.value then multiset(countries)[c] else 0
    ensures r.Ok? ==> forall i, j :: 0 <= i < j < |r.value| ==> StrLe(r.value[i].alpha2, r.value[j].alpha2)
    ensures !r.Crash?
  {
    var all := Directory(countries);
    if region.None? || region == Some([""]) then Ok(all)
    else if exists i :: 0 <= i < |region.value| && region.value[i] !in known then Fail(BadRequest, InvalidData)
    else
      FilteredDirectory(countries, region.value);
      Ok(InRegions(all, region.value))
  }

  lemma FilteredDirectory(countries: seq<Country>, regions: seq<string>)
    ensures var r := InRegions(Directory(countries), regions);
      && (forall c :: c in r <==> c in countries && c.region.Some? && c.region.value in regions)
      && (forall c {:trigger multiset(r)[c]} :: multiset(r)[c] == if c.region.Some? && c.region.value in regions then multiset(countries)[c] else 0)
      && (forall i, j :: 0 <= i < j < |r| ==> StrLe(r[i].alpha2, r[j].alpha2))
  {
    var all := Directory(countries);
    InRegionsKeepsOrder(all, regions);
    assert forall c :: c in all <==> c in multiset(countries);
  }

  /** `get_country`: a code of the wrong shape is a 400 with reason
      `invalid_data`; an unknown code is a 404 with reason `invalid_alpha2`. */
  function GetCountry(alpha2: string, countries: seq<Country>): (r: Outcome<Country>)
    ensures !Validators.ValidCountryCode(alpha2) ==> r == Fail(BadRequest, InvalidData)
    ensures r.Ok? <==> Validators.ValidCountryCode(alpha2) && exists c :: c in countries && c.alpha2 == alpha2
    ensures r.Ok? ==> r.value in countries && r.value.alpha2 == alpha2
    ensures Validators.ValidCountryCode(alpha2) && !r.Ok? ==> r == Fail(NotFound, InvalidAlpha2)
  {
    if !Validators.ValidCountryCode(alpha2) then Fail(BadRequest, InvalidData)
    else
      match First(countries, (c: Country) => c.alpha2 == alpha2)
      case None => Fail(NotFound, InvalidAlpha2)
      case Some(i) => Ok(countries[i])
  }

  /** Every country in the directory with a well-formed code can be
      fetched by that code, and what comes back carries that code. */
  lemma ListedCountriesCanBeFetched(countries: seq<Country>, c: Country)
    requires ListCountries(None, {}, countries).Ok?
    requires c in ListCountries(None, {}, countries).value
    requires Validators.ValidCountryCode(c.alpha2)
    ensures GetCountry(c.alpha2, countries).Ok?
    ensures GetCountry(c.alpha2, countries).value.alpha2 == c.alpha2
  {
    assert c in multiset(countries);
  }
}

=== FILE: feeds.dfy ===
/**
 * Posts: `post_add_post`, `get_my_feed` and `get_feed`. Feeds list an
 * author's posts newest first (a stable sort, so posts created at the same
 * moment keep their table order).
 */
module Feeds {
  import opened Outcomes
  import opened Store
  import opened Listing
  import opened Session
  import opened Visibility
  import Validators

  /**
   * `post_add_post`: bad content or tags are a 400 (with reason
   * `invalid_token`, as written); otherwise a post with the fresh id
   * `postId`, the caller as author, the current time and both counters at
   * zero is stored and returned. The id is the primary key of the posts
   * table, so an id already in use makes the insert raise.
   */
  function CreatePost(header: Option<string>, content: string, tags: seq<string>, postId: string,
                      s: Store, now: int): (r: Reply<Post>)
    ensures var g := Authenticate(header, s, now);
      g.Refuse? ==> r == Reply(Denied(), g.store)
    ensures var g := Authenticate(header, s, now);
      g.Admit? ==>
        && (r.out.Fail? <==> !(1 <= |content| <= 1000) || exists i :: 0 <= i < |tags| && !(1 <= |tags[i]| <= 20))
        && (r.out.Fail? ==> r == Reply(Fail(BadRequest, InvalidToken), s))
        && (r.out.Crash? <==> !r.out.Fail? && HasPost(s.posts, postId))
        && (r.out.Crash? ==> r.store == s)
        && (r.out.Ok? ==>
              && r.out.value == Post(postId, content, g.login, tags, now, 0, 0)
              && r.store == s.(posts := s.posts + [r.out.value]))
    ensures Valid(s) ==> Valid(r.store)
  {
    AuthenticateKeepsValid(header, s, now);
    match Authenticate(header, s, now)
    case Refuse(s') => Reply(Denied(), s')
    case Admit(viewer) =>
      if !Validators.ValidContent(content) then Reply(Fail(BadRequest, InvalidToken), s)
      else if !Validators.ValidTags(tags) then Reply(Fail(BadRequest, InvalidToken), s)
      else if FindPost(s.posts, postId).Some? then Reply(Crash, s)
      else
        var post := Post(postId, content, viewer, tags, now, 0, 0);
        NewPostKeepsValid(s, post);
        Reply(Ok(post), s.(posts := s.posts + [post]))
  }

  /** No mark names a post that is not stored. */
  lemma {:induction false} NoMarksYet(marks: seq<Mark>, postId: string, liked: bool)
    requires forall i :: 0 <= i < |marks| ==> marks[i].postId != postId
    ensures CountMarks(marks, postId, liked) == 0
    decreases |marks|
  {
    if marks != [] {
      NoMarksYet(marks[..|marks| - 1], postId, liked);
    }
  }

  /** A new post by a registered author with an unused id and zero
      counters keeps the store invariant. */
  lemma NewPostKeepsValid(s: Store, post: Post)
    requires Valid(s) ==> HasUser(s.users, post.author)
    requires FindPost(s.posts, post.id).None?
    requires post.likesCount == 0 && post.dislikesCount == 0
    ensures Valid(s) ==> Valid(s.(posts := s.posts + [post]))
  {
    if Valid(s) {
      AppendPostKeepsPosts(s, post);
      AppendPostKeepsCounters(s, post);
    }
  }

  /** A post with a fresh id and a registered author keeps the posts and
      the marks well formed. */
  lemma AppendPostKeepsPosts(s: Store, post: Post)
    requires PostsWellFormed(s) && MarksWellFormed(s)
    requires HasUser(s.users, post.author)
    requires FindPost(s.posts, post.id).None?
    ensures PostsWellFormed(s.(posts := s.posts + [post]))
    ensures MarksWellFormed(s.(posts := s.posts + [post]))
  {
    var s' := s.(posts := s.posts + [post]);
    assert forall k :: 0 <= k < |s.posts| ==> s'.posts[k] == s.posts[k];
    assert forall id :: HasPost(s.posts, id) ==> HasPost(s'.posts, id);
  }

  /** A post with a fresh id and zero counters keeps the counters right:
      no mark can point at it yet. */
  lemma AppendPostKeepsCounters(s: Store, post: Post)
    requires MarksWellFormed(s) && CountersAgree(s.posts, s.marks)
    requires FindPost(s.posts, post.id).None?
    requires post.likesCount == 0 && post.dislikesCount == 0
    ensures CountersAgree(s.posts + [post], s.marks)
  {
    forall i | 0 <= i < |s.marks|
      ensures s.marks[i].postId != post.id
    {
      var k :| 0 <= k < |s.posts| && s.posts[k].id == s.marks[i].postId;
    }
    NoMarksYet(s.marks, post.id, true);
    NoMarksYet(s.marks, post.id, false);
    var ps := s.posts + [post];
    assert forall k :: 0 <= k < |s.posts| ==> ps[k] == s.posts[k];
  }

  /** Newer posts first: `sorted(..., reverse=True)` on the creation time. */
  predicate NewestFirst(a: Post, b: Post) {
    a.createdAt >= b.createdAt
  }

  lemma NewestFirstIsTotalPreorder()
    ensures TotalPreorder(NewestFirst)
  {
  }

  /** An author's posts, newest first. */
  function Timeline(posts: seq<Post>, author: Login): (r: seq<Post>)
    ensures forall p :: p in r <==> p in posts && p.author == author
    ensures forall sorted :: IsStableSortOf(sorted, PostsBy(posts, author), NewestFirst) ==> r == sorted
  {
    var mine := PostsBy(posts, author);
    var r := SortBy(mine, NewestFirst);
    SortByPermutes(mine, NewestFirst);
    NewestFirstIsTotalPreorder();
    SortByIsStable(mine, NewestFirst);
    assert forall p :: p in r <==> p in multiset(mine);
    assert forall sorted :: IsStableSortOf(sorted, mine, NewestFirst) ==> r == sorted by {
      forall sorted | IsStableSortOf(sorted, mine, NewestFirst)
        ensures r == sorted
      {
        StableSortUnique(sorted, r, mine, NewestFirst);
      }
    }
    r
  }

  /** A timeline is ordered newest first. */
  lemma TimelineIsNewestFirst(posts: seq<Post>, author: Login)
    ensures var t := Timeline(posts, author);
      forall i, j :: 0 <= i < j < |t| ==> t[i].createdAt >= t[j].createdAt
  {
    var mine := PostsBy(posts, author);
    NewestFirstIsTotalPreorder();
    SortByIsStable(mine, NewestFirst);
  }

  /**
   * `get_my_feed`: the caller's posts newest first, cut by Python's
   * `[offset:][:limit]`. Neither bound is validated, so negative values
   * count from the end.
   */
  function MyFeed(header: Option<string>, limit: int, offset: int, s: Store, now: int): (r: Reply<seq<Post>>)
    ensures var g := Authenticate(header, s, now);
      g.Refuse? ==> r == Reply(Denied(), g.store)
    ensures var g := Authenticate(header, s, now);
      g.Admit? ==>
        && r.store == s
        && r.out.Ok?
        && (forall p :: p in r.out.value ==> p in s.posts && p.author == g.login)
        && (0 <= offset && 0 <= limit ==>
              var t := Timeline(s.posts, g.login);
              && |r.out.value| == Min(limit, Max(0, |t| - offset))
              && forall i :: 0 <= i < |r.out.value| ==> r.out.value[i] == t[offset + i])
  {
    match Authenticate(header, s, now)
    case Refuse(s') => Reply(Denied(), s')
    case Admit(viewer) =>
      var t := Timeline(s.posts, viewer);
      PageWithin(t, offset, limit);
      Reply(Ok(Page(t, offset, limit)), s)
  }

  /** A page only holds elements of the list it cuts, and with
      non-negative bounds it is the window `offset .. offset + limit`. */
  lemma PageWithin<T>(xs: seq<T>, offset: int, limit: int)
    ensures forall x :: x in Page(xs, offset, limit) ==> x in xs
    ensures 0 <= offset && 0 <= limit ==>
      && |Page(xs, offset, limit)| == Min(limit, Max(0, |xs| - offset))
      && forall i :: 0 <= i < |Page(xs, offset, limit)| ==> Page(xs, offset, limit)[i] == xs[offset + i]
  {
    var a := SliceFrom(xs, offset);
    assert forall x :: x in a ==> x in xs;
    if 0 <= offset && 0 <= limit {
      PageWindow(xs, offset, limit);
    }
  }

  /**
   * `get_feed`: an unknown author is a 404 with reason `invalid_token`;
   * the caller's own feed is cut like `get_my_feed`; a visible author's
   * whole timeline is returned uncut; a hidden author is a 404 with
   * reason `invalid_data`.
   */
  function Feed(header: Option<string>, login: Login, limit: int, offset: int, s: Store, now: int): (r: Reply<seq<Post>>)
    ensures var g := Authenticate(header, s, now);
      g.Refuse? ==> r == Reply(Denied(), g.store)
    ensures var g := Authenticate(header, s, now);
      g.Admit? ==>
        && r.store == s
        && (!HasUser(s.users, login) ==> r.out == Fail(NotFound, InvalidToken))
        && (HasUser(s.users, login) ==>
              && (r.out.Ok? <==> CanView(s, g.login, UserNamed(s, login).value))
              && (r.out.Fail? ==> r.out == Fail(NotFound, InvalidData)))
        && (r.out.Ok? ==>
              && (forall p :: p in r.out.value ==> p in s.posts && p.author == login)
              && (login != g.login ==> r.out.value == Timeline(s.posts, login)))
        && !r.out.Crash?
  {
    match Authenticate(header, s, now)
    case Refuse(s') => Reply(Denied(), s')
    case Admit(viewer) =>
      match UserNamed(s, login)
      case None => Reply(Fail(NotFound, InvalidToken), s)
      case Some(author) =>
        var t := Timeline(s.posts, login);
        if viewer == author.login then
          PageWithin(t, offset, limit);
          Reply(Ok(Page(t, offset, limit)), s)
        else if !author.isPublic then
          ScanIsListed(s.friends, author.login, viewer);
          if AnyFriendIs(FriendsOf(s.friends, author.login), viewer) then Reply(Ok(t), s)
          else Reply(Fail(NotFound, InvalidData), s)
        else Reply(Ok(t), s)
  }

  /** The caller's own feed by login is their own feed. */
  lemma OwnFeedIsMyFeed(header: Option<string>, limit: int, offset: int, s: Store, now: int)
    requires Authenticate(header, s, now).Admit?
    requires HasUser(s.users, Authenticate(header, s, now).login)
    ensures Feed(header, Authenticate(header, s, now).login, limit, offset, s, now) == MyFeed(header, limit, offset, s, now)
  {
  }

  /** The feed of another visible author is not cut by `limit` and
      `offset`: every one of their posts is listed. */
  lemma OthersFeedIsWhole(header: Option<string>, login: Login, limit: int, offset: int, s: Store, now: int)
    requires Authenticate(header, s, now).Admit?
    requires login != Authenticate(header, s, now).login
    requires HasUser(s.users, login) && CanView(s, Authenticate(header, s, now).login, UserNamed(s, login).value)
    ensures var r := Feed(header, login, limit, offset, s, now);
      r.out.Ok? && forall p :: p in s.posts && p.author == login ==> p in r.out.value
  {
  }
}

=== FILE: friends.dfy ===
/**
 * The friend list: `post_add_friend`, the remove handler and
 * `get_my_friends`. An edge `login -> friend` means `login` lets `friend`
 * see their profile and posts; adding is idempotent, removing an absent
 * edge succeeds without change, and the list is the owner's edges newest
 * first, paginated.
 */
module Friends {
  import opened Outcomes
  import opened Store
  import opened Listing
  import opened Session
  import opened Visibility
  import Validators

  /** `edges` without the element at `j`. */
  function RemoveAt<T>(xs: seq<T>, j: nat): (r: seq<T>)
    requires j < |xs|
    ensures |r| == |xs| - 1
    ensures forall i :: 0 <= i < j ==> r[i] == xs[i]
    ensures forall i :: j <= i < |r| ==> r[i] == xs[i + 1]
  {
    xs[..j] + xs[j + 1..]
  }

  lemma RemoveAtMembers<T>(xs: seq<T>, j: nat)
    requires j < |xs|
    ensures forall i :: 0 <= i < |xs| && i != j ==> xs[i] in RemoveAt(xs, j)
    ensures forall e :: e in RemoveAt(xs, j) ==> e in xs
  {
    var r := RemoveAt(xs, j);
    forall i | 0 <= i < |xs| && i != j
      ensures xs[i] in r
    {
      if i < j { assert r[i] == xs[i]; } else { assert r[i - 1] == xs[i]; }
    }
  }

  lemma ListedIsFound(edges: seq<FriendEdge>, owner: Login, friend: Login)
    ensures Listed(edges, owner, friend) <==> FindEdge(edges, owner, friend).Some?
  {
  }

  /** `post_add_friend`: the session gate, then `Befriend` for the caller. */
  function AddFriend(header: Option<string>, login: Login, s: Store, now: int): (r: Reply<()>)
    ensures var g := Authenticate(header, s, now);
      g.Refuse? ==> r == Reply(Denied(), g.store)
    ensures var g := Authenticate(header, s, now);
      g.Admit? ==> r == Befriend(s, g.login, login, now)
    ensures Valid(s) ==> Valid(r.store)
  {
    AuthenticateKeepsValid(header, s, now);
    match Authenticate(header, s, now)
    case Refuse(s') => Reply(Denied(), s')
    case Admit(viewer) => Befriend(s, viewer, login, now)
  }

  /**
   * What `post_add_friend` does for an admitted `viewer`: an unknown login
   * is a 404; an edge that exists already is left as it is; otherwise the
   * edge `viewer -> login` is recorded with the current time. Adding
   * oneself is not refused.
   */
  function Befriend(s: Store, viewer: Login, login: Login, now: int): (r: Reply<()>)
    ensures !HasUser(s.users, login) ==> r == Reply(Fail(NotFound, InvalidData), s)
    ensures HasUser(s.users, login) ==> r.out == Ok(()) && Listed(r.store.friends, viewer, login)
    ensures Listed(s.friends, viewer, login) ==> r.store == s
    ensures HasUser(s.users, login) && !Listed(s.friends, viewer, login) ==>
      r.store == s.(friends := s.friends + [FriendEdge(viewer, login, now)])
    ensures Valid(s) && HasUser(s.users, viewer) ==> Valid(r.store)
  {
    if FindUser(s.users, login).None? then Reply(Fail(NotFound, InvalidData), s)
    else if FindEdge(s.friends, viewer, login).Some? then Reply(Ok(()), s)
    else
      var edges := s.friends + [FriendEdge(viewer, login, now)];
      assert edges[|s.friends|] == FriendEdge(viewer, login, now);
      Reply(Ok(()), s.(friends := edges))
  }

  /** The remove handler: the session gate, then `Unfriend` for the caller. */
  function RemoveFriend(header: Option<string>, login: Login, s: Store, now: int): (r: Reply<()>)
    ensures var g := Authenticate(header, s, now);
      g.Refuse? ==> r == Reply(Denied(), g.store)
    ensures var g := Authenticate(header, s, now);
      g.Admit? ==> r == Unfriend(s, g.login, login)
    ensures Valid(s) ==> Valid(r.store)
  {
    AuthenticateKeepsValid(header, s, now);
    match Authenticate(header, s, now)
    case Refuse(s') => Reply(Denied(), s')
    case Admit(viewer) => Unfriend(s, viewer, login)
  }

  /**
   * What the remove handler does for an admitted `viewer`: the edge
   * `viewer -> login` is deleted when it exists, and the answer is `ok`
   * either way. The lookup compares logins exactly; see
   * `UnfriendAsWritten` for the lookup the source performs.
   */
  function Unfriend(s: Store, viewer: Login, login: Login): (r: Reply<()>)
    ensures r.out == Ok(())
    ensures r.store == s.(friends := r.store.friends)
    ensures !Listed(s.friends, viewer, login) ==> r.store == s
    ensures |r.store.friends| == |s.friends| - (if Listed(s.friends, viewer, login) then 1 else 0)
    ensures forall e :: e in r.store.friends ==> e in s.friends
    ensures forall i :: 0 <= i < |s.friends| && !(s.friends[i].login == viewer && s.friends[i].friend == login) ==>
      s.friends[i] in r.store.friends
    ensures Valid(s) ==> !Listed(r.store.friends, viewer, login)
    ensures Valid(s) && HasUser(s.users, viewer) ==> Valid(r.store)
  {
    match FindEdge(s.friends, viewer, login)
    case None => Reply(Ok(()), s)
    case Some(j) =>
      RemoveEdgeFacts(s, viewer, login, j);
      Reply(Ok(()), s.(friends := RemoveAt(s.friends, j)))
  }

  lemma RemoveEdgeFacts(s: Store, viewer: Login, login: Login, j: nat)
    requires FindEdge(s.friends, viewer, login) == Some(j)
    requires Valid(s) ==> HasUser(s.users, viewer)
    ensures var edges := RemoveAt(s.friends, j);
      && (forall e :: e in edges ==> e in s.friends)
      && (forall i :: 0 <= i < |s.friends| && !(s.friends[i].login == viewer && s.friends[i].friend == login) ==>
            s.friends[i] in edges)
      && (Valid(s) ==> !Listed(edges, viewer, login) && Valid(s.(friends := edges)))
  {
    var edges := RemoveAt(s.friends, j);
    RemoveAtMembers(s.friends, j);
    if Valid(s) {
      forall i | 0 <= i < |edges|
        ensures !(edges[i].login == viewer && edges[i].friend == login)
      {
        if i < j { assert edges[i] == s.friends[i]; } else { assert edges[i] == s.friends[i + 1]; }
      }
      assert EdgesWellFormed(s.(friends := edges));
    }
  }

  /** Deleting any one edge keeps the store invariant. */
  lemma RemoveAtKeepsValid(s: Store, j: nat)
    requires j < |s.friends|
    ensures Valid(s) ==> Valid(s.(friends := RemoveAt(s.friends, j)))
  {
    var edges := RemoveAt(s.friends, j);
    if !Valid(s) { return; }
    forall a, b | 0 <= a < b < |edges|
      ensures !(edges[a].login == edges[b].login && edges[a].friend == edges[b].friend)
    {
      var a' := if a < j then a else a + 1;
      var b' := if b < j then b else b + 1;
      assert edges[a] == s.friends[a'] && edges[b] == s.friends[b'];
    }
    forall a | 0 <= a < |edges|
      ensures HasUser(s.users, edges[a].login) && HasUser(s.users, edges[a].friend)
    {
      assert edges[a] == s.friends[if a < j then a else a + 1];
    }
    assert EdgesWellFormed(s.(friends := edges));
  }

  /** Adding a new edge and removing it again restores the store. */
  lemma AddThenRemove(header: Option<string>, login: Login, s: Store, now: int)
    requires Authenticate(header, s, now).Admit?
    requires HasUser(s.users, login)
    requires !Listed(s.friends, Authenticate(header, s, now).login, login)
    ensures RemoveFriend(header, login, AddFriend(header, login, s, now).store, now).store == s
  {
    var viewer := Authenticate(header, s, now).login;
    var s' := AddFriend(header, login, s, now).store;
    assert Presented(header, s') == Presented(header, s);
    assert FindEdge(s'.friends, viewer, login) == Some(|s.friends|);
    assert RemoveAt(s'.friends, |s.friends|) == s.friends;
  }

  /** Adding twice is adding once. */
  lemma AddTwice(header: Option<string>, login: Login, s: Store, now: int)
    requires Authenticate(header, s, now).Admit?
    ensures var s' := AddFriend(header, login, s, now).store;
      AddFriend(header, login, s', now) == AddFriend(header, login, s, now)
  {
    var s' := AddFriend(header, login, s, now).store;
    assert Presented(header, s') == Presented(header, s);
  }

  /** An edge grants its friend the view of a private owner, and removing
      it (in a store with one edge per pair) takes the view away again. */
  lemma EdgeGrantsAndRevokesView(header: Option<string>, s: Store, now: int, friend: Login)
    requires Valid(s)
    requires Authenticate(header, s, now).Admit?
    requires HasUser(s.users, friend)
    ensures var owner := UserNamed(s, Authenticate(header, s, now).login).value;
      && CanView(AddFriend(header, friend, s, now).store, friend, owner)
      && (!owner.isPublic && owner.login != friend ==>
            !CanView(RemoveFriend(header, friend, s, now).store, friend, owner))
  {
    AuthenticateKeepsValid(header, s, now);
  }

  /** A line of the friend list. */
  datatype FriendView = FriendView(login: Login, addedAt: int)

  /** Newer edges first: `sorted(..., reverse=True)` on the time added. */
  predicate NewerFirst(a: FriendEdge, b: FriendEdge) {
    a.addedAt >= b.addedAt
  }

  lemma NewerFirstIsTotalPreorder()
    ensures TotalPreorder(NewerFirst)
  {
  }

  function Views(edges: seq<FriendEdge>): (r: seq<FriendView>)
    ensures |r| == |edges|
    ensures forall i :: 0 <= i < |edges| ==> r[i] == FriendView(edges[i].friend, edges[i].addedAt)
  {
    seq(|edges|, i requires 0 <= i < |edges| => FriendView(edges[i].friend, edges[i].addedAt))
  }

  /**
   * `get_my_friends`: a limit outside 0..50 or a negative offset is a 400
   * (with reason `invalid_token`, as written); otherwise the caller's
   * edges, newest first with ties in table order, skipping `offset` and
   * keeping at most `limit`.
   */
  function ListFriends(header: Option<string>, limit: int, offset: int, s: Store, now: int): (r: Reply<seq<FriendView>>)
    ensures var g := Authenticate(header, s, now);
      g.Refuse? ==> r == Reply(Denied(), g.store)
    ensures var g := Authenticate(header, s, now);
      g.Admit? ==> r == Reply(FriendList(s.friends, g.login, limit, offset), s)
  {
    match Authenticate(header, s, now)
    case Refuse(s') => Reply(Denied(), s')
    case Admit(viewer) => Reply(FriendList(s.friends, viewer, limit, offset), s)
  }

  /**
   * What an admitted caller gets back: a 400 for bad bounds, otherwise a
   * page of the caller's own edges, newest first.
   */
  function FriendList(edges: seq<FriendEdge>, viewer: Login, limit: int, offset: int): (r: Outcome<seq<FriendView>>)
    ensures r.Ok? <==> 0 <= limit <= 50 && offset >= 0
    ensures !r.Ok? ==> r == Fail(BadRequest, InvalidToken)
    ensures r.Ok? ==>
      var mine := FriendsOf(edges, viewer);
      && |r.value| == Min(limit, Max(0, |mine| - offset))
      && (forall v :: v in r.value ==> Listed(edges, viewer, v.login))
      && (forall i, j :: 0 <= i < j < |r.value| ==> r.value[i].addedAt >= r.value[j].addedAt)
      && (forall sorted :: IsStableSortOf(sorted, mine, NewerFirst) ==>
            r.value == Views(Page(sorted, offset, limit)))
  {
    if !Validators.ValidLimit(limit) then Fail(BadRequest, InvalidToken)
    else if !Validators.ValidOffset(offset) then Fail(BadRequest, InvalidToken)
    else
      var mine := FriendsOf(edges, viewer);
      var page := NewestFirstPage(mine, offset, limit);
      ViewsAreListed(edges, viewer, mine, page);
      Ok(page)
  }

  /**
   * The page of a friend list the listing returns: the edges newest first
   * (ties in table order), `offset` skipped, at most `limit` kept. It is
   * the same page whichever stable sort produced it.
   */
  function NewestFirstPage(mine: seq<FriendEdge>, offset: nat, limit: nat): (page: seq<FriendView>)
    ensures |page| == Min(limit, Max(0, |mine| - offset))
    ensures forall v :: v in page ==> exists e :: e in mine && v == FriendView(e.friend, e.addedAt)
    ensures forall i, j :: 0 <= i < j < |page| ==> page[i].addedAt >= page[j].addedAt
    ensures forall sorted :: IsStableSortOf(sorted, mine, NewerFirst) ==> page == Views(Page(sorted, offset, limit))
  {
    NewerFirstSort(mine);
    PageOfSorted(mine, SortBy(mine, NewerFirst), offset, limit);
    PageWindow(SortBy(mine, NewerFirst), offset, limit);
    Views(Page(SortBy(mine, NewerFirst), offset, limit))
  }

  /** A line that comes from one of the caller's edges names a listed friend. */
  lemma ViewsAreListed(edges: seq<FriendEdge>, viewer: Login, mine: seq<FriendEdge>, page: seq<FriendView>)
    requires forall e :: e in mine ==> e in edges && e.login == viewer
    requires forall v :: v in page ==> exists e :: e in mine && v == FriendView(e.friend, e.addedAt)
    ensures forall v :: v in page ==> Listed(edges, viewer, v.login)
  {
    forall v | v in page
      ensures Listed(edges, viewer, v.login)
    {
      var e :| e in mine && v == FriendView(e.friend, e.addedAt);
      var k :| 0 <= k < |edges| && edges[k] == e;
    }
  }

  /** The stable newest-first sort of a friend list: a reordering of it,
      ordered, and the only stable sort there is. */
  lemma NewerFirstSort(mine: seq<FriendEdge>)
    ensures var sorted := SortBy(mine, NewerFirst);
      && |sorted| == |mine|
      && (forall e :: e in sorted ==> e in mine)
      && (forall i, j :: 0 <= i < j < |sorted| ==> sorted[i].addedAt >= sorted[j].addedAt)
      && (forall other :: IsStableSortOf(other, mine, NewerFirst) ==> other == sorted)
  {
    var sorted := SortBy(mine, NewerFirst);
    SortByPermutes(mine, NewerFirst);
    NewerFirstIsTotalPreorder();
    SortByIsStable(mine, NewerFirst);
    assert |multiset(sorted)| == |multiset(mine)|;
    forall e | e in sorted
      ensures e in mine
    {
      assert e in multiset(sorted);
    }
    forall other | IsStableSortOf(other, mine, NewerFirst)
      ensures other == sorted
    {
      StableSortUnique(other, sorted, mine, NewerFirst);
    }
  }

  /** A page of an ordered selection of a friend list. */
  lemma PageOfSorted(mine: seq<FriendEdge>, sorted: seq<FriendEdge>, offset: nat, limit: nat)
    requires forall e :: e in sorted ==> e in mine
    requires forall i, j :: 0 <= i < j < |sorted| ==> sorted[i].addedAt >= sorted[j].addedAt
    ensures var page := Views(Page(sorted, offset, limit));
      && (forall v :: v in page ==> exists e :: e in mine && v == FriendView(e.friend, e.addedAt))
      && (forall i, j :: 0 <= i < j < |page| ==> page[i].addedAt >= page[j].addedAt)
  {
    var pg := Page(sorted, offset, limit);
    var page := Views(pg);
    PageWindow(sorted, offset, limit);
    forall v | v in page
      ensures exists e :: e in mine && v == FriendView(e.friend, e.addedAt)
    {
      var i :| 0 <= i < |page| && page[i] == v;
      assert sorted[offset + i] in mine;
    }
    forall i, j | 0 <= i < j < |page|
      ensures page[i].addedAt >= page[j].addedAt
    {
      assert pg[i] == sorted[offset + i] && pg[j] == sorted[offset + j];
    }
  }

  // ---------------------------------------------------------------------
  // The edge lookup of the remove handler as the source writes it: a SQL
  // `LIKE` whose pattern is the login from the request body.
  // ---------------------------------------------------------------------

  /** PostgreSQL `LIKE`: `%` matches any run of characters and `_` any one
      character; every other character matches itself. */
  function LikeMatch(v: string, p: string): bool
    decreases |p| + |v|
  {
    if p == [] then v == []
    else if p[0] == '%' then LikeMatch(v, p[1..]) || (v != [] && LikeMatch(v[1..], p))
    else v != [] && (p[0] == '_' || p[0] == v[0]) && LikeMatch(v[1..], p[1..])
  }

  /** A pattern without wildcards. */
  predicate Plain(p: string) {
    forall i :: 0 <= i < |p| ==> p[i] != '%' && p[i] != '_'
  }

  /** A pattern without wildcards matches exactly itself. */
  lemma {:induction false} PlainLikeIsEquality(v: string, p: string)
    requires Plain(p)
    ensures LikeMatch(v, p) <==> v == p
    decreases |p|
  {
    if p != [] && v != [] {
      PlainLikeIsEquality(v[1..], p[1..]);
      if v[1..] == p[1..] && v[0] == p[0] {
        assert v == [v[0]] + v[1..] && p == [p[0]] + p[1..];
      }
    }
  }

  /** `%` alone matches every string. */
  lemma {:induction false} PercentMatchesAll(v: string)
    ensures LikeMatch(v, "%")
    decreases |v|
  {
    if v != [] {
      PercentMatchesAll(v[1..]);
    }
  }

  /** Registered logins contain no wildcard. */
  lemma LoginsArePlain(login: Login)
    requires Validators.ValidLogin(login)
    ensures Plain(login)
  {
  }

  predicate LikeEdge(e: FriendEdge, owner: Login, pattern: string) {
    LikeMatch(e.login, owner) && LikeMatch(e.friend, pattern)
  }

  /** The filter of the lookup as a predicate on edges. */
  function LikeFilter(owner: Login, pattern: string): FriendEdge -> bool {
    (e: FriendEdge) => LikeEdge(e, owner, pattern)
  }

  lemma LikeFilterHolds(e: FriendEdge, owner: Login, pattern: string)
    requires LikeMatch(e.login, owner) && LikeMatch(e.friend, pattern)
    ensures LikeFilter(owner, pattern)(e)
  {
  }

  /** Without wildcards the `LIKE` lookup finds the edge the exact one finds. */
  lemma PlainLookupIsExact(edges: seq<FriendEdge>, owner: Login, login: Login)
    requires Plain(owner) && Plain(login)
    ensures First(edges, LikeFilter(owner, login)) == FindEdge(edges, owner, login)
  {
    var p := LikeFilter(owner, login);
    forall e: FriendEdge
      ensures p(e) <==> e.login == owner && e.friend == login
    {
      PlainLikeIsEquality(e.login, owner);
      PlainLikeIsEquality(e.friend, login);
    }
    var a, b := First(edges, p), FindEdge(edges, owner, login);
    if a.Some? {
      assert edges[a.value].login == owner && edges[a.value].friend == login;
    }
    if b.Some? {
      assert p(edges[b.value]);
    }
  }

  /**
   * The remove handler as written: the edges of the caller whose friend
   * matches the body's login as a `LIKE` pattern are looked up with
   * `one_or_none()`: none is `ok` without change, one is deleted, more
   * than one raises.
   */
  function RemoveFriendAsWritten(header: Option<string>, pattern: string, s: Store, now: int): (r: Reply<()>)
    ensures var g := Authenticate(header, s, now);
      g.Refuse? ==> r == Reply(Denied(), g.store)
    ensures var g := Authenticate(header, s, now);
      g.Admit? ==> r == UnfriendAsWritten(s, g.login, pattern)
    ensures Valid(s) ==> Valid(r.store)
  {
    AuthenticateKeepsValid(header, s, now);
    match Authenticate(header, s, now)
    case Refuse(s') => Reply(Denied(), s')
    case Admit(viewer) => UnfriendAsWritten(s, viewer, pattern)
  }

  /**
   * The removal as written, for an admitted `viewer`: the first edge
   * matching the pattern is deleted; two matches make `one_or_none`
   * raise; no match is `ok` with nothing changed.
   */
  function UnfriendAsWritten(s: Store, viewer: Login, pattern: string): (r: Reply<()>)
    ensures r.store == s.(friends := r.store.friends)
    ensures r.out.Crash? <==>
      exists i, k :: 0 <= i < k < |s.friends| && LikeEdge(s.friends[i], viewer, pattern) && LikeEdge(s.friends[k], viewer, pattern)
    ensures !r.out.Crash? ==> r.out == Ok(())
    ensures r.out.Ok? ==>
      && (forall e :: e in r.store.friends ==> e in s.friends && !LikeEdge(e, viewer, pattern))
      && (forall i :: 0 <= i < |s.friends| && !LikeEdge(s.friends[i], viewer, pattern) ==>
            s.friends[i] in r.store.friends)
    ensures Valid(s) ==> Valid(r.store)
  {
    var matches := LikeFilter(viewer, pattern);
    match First(s.friends, matches)
    case None => Reply(Ok(()), s)
    case Some(j) =>
      SecondMatch(s.friends, matches, j);
      if First(s.friends[j + 1..], matches).Some? then Reply(Crash, s)
      else
        RemoveOnlyMatch(s.friends, matches, j);
        RemoveAtKeepsValid(s, j);
        Reply(Ok(()), s.(friends := RemoveAt(s.friends, j)))
  }

  /** After the first match at `j`, a second match exists exactly when two
      elements match. */
  lemma SecondMatch<T>(xs: seq<T>, p: T -> bool, j: nat)
    requires First(xs, p) == Some(j)
    ensures First(xs[j + 1..], p).Some? <==> exists i, k :: 0 <= i < k < |xs| && p(xs[i]) && p(xs[k])
  {
    var rest := xs[j + 1..];
    assert forall k :: j < k < |xs| ==> xs[k] == rest[k - j - 1];
    if First(rest, p).Some? {
      var k := j + 1 + First(rest, p).value;
      assert xs[k] == rest[First(rest, p).value];
    }
  }

  /** Removing the only match leaves exactly the elements that do not match. */
  lemma RemoveOnlyMatch<T>(xs: seq<T>, p: T -> bool, j: nat)
    requires First(xs, p) == Some(j)
    requires First(xs[j + 1..], p).None?
    ensures forall e :: e in RemoveAt(xs, j) ==> e in xs && !p(e)
    ensures forall i :: 0 <= i < |xs| && !p(xs[i]) ==> xs[i] in RemoveAt(xs, j)
  {
    var rest := xs[j + 1..];
    var r := RemoveAt(xs, j);
    RemoveAtMembers(xs, j);
    forall i | 0 <= i < |r|
      ensures !p(r[i])
    {
      if i >= j { assert r[i] == rest[i - j]; }
    }
  }

  /** With one edge per pair, a plain lookup has no second match. */
  lemma NoSecondPlainMatch(s: Store, viewer: Login, login: Login, j: nat)
    requires EdgesWellFormed(s)
    requires Plain(viewer) && Plain(login)
    requires FindEdge(s.friends, viewer, login) == Some(j)
    ensures First(s.friends[j + 1..], LikeFilter(viewer, login)).None?
  {
    PlainLookupIsExact(s.friends, viewer, login);
    SecondMatch(s.friends, LikeFilter(viewer, login), j);
    forall a, b | 0 <= a < b < |s.friends| && LikeFilter(viewer, login)(s.friends[a])
      ensures !LikeFilter(viewer, login)(s.friends[b])
    {
      PlainLikeIsEquality(s.friends[a].login, viewer);
      PlainLikeIsEquality(s.friends[a].friend, login);
      PlainLikeIsEquality(s.friends[b].login, viewer);
      PlainLikeIsEquality(s.friends[b].friend, login);
    }
  }

  /** The caller of an admitted request has a registered, hence plain, login. */
  lemma AdmittedIsPlain(header: Option<string>, s: Store, now: int)
    requires Valid(s)
    requires forall i :: 0 <= i < |s.users| ==> Validators.ValidLogin(s.users[i].login)
    ensures Authenticate(header, s, now).Admit? ==> Plain(Authenticate(header, s, now).login)
  {
    AuthenticateKeepsValid(header, s, now);
    if Authenticate(header, s, now).Admit? {
      var i :| 0 <= i < |s.users| && s.users[i].login == Authenticate(header, s, now).login;
      LoginsArePlain(s.users[i].login);
    }
  }

  /** For a caller and a body login without wildcards, in a store with one
      edge per pair, the removal as written and the exact one agree. */
  lemma UnfriendAgreesOnPlainLogins(s: Store, viewer: Login, login: Login)
    requires EdgesWellFormed(s)
    requires Plain(viewer) && Plain(login)
    ensures UnfriendAsWritten(s, viewer, login) == Unfriend(s, viewer, login)
  {
    PlainLookupIsExact(s.friends, viewer, login);
    match FindEdge(s.friends, viewer, login)
    case None =>
    case Some(j) =>
      NoSecondPlainMatch(s, viewer, login, j);
  }

  /** For a body login without wildcards in a store with one edge per pair
      and registered logins only, the handler as written and the exact one
      agree. */
  lemma AsWrittenAgreesOnPlainLogins(header: Option<string>, login: Login, s: Store, now: int)
    requires Valid(s)
    requires forall i :: 0 <= i < |s.users| ==> Validators.ValidLogin(s.users[i].login)
    requires Plain(login)
    ensures RemoveFriendAsWritten(header, login, s, now) == RemoveFriend(header, login, s, now)
  {
    AdmittedIsPlain(header, s, now);
    if Authenticate(header, s, now).Admit? {
      UnfriendAgreesOnPlainLogins(s, Authenticate(header, s, now).login, login);
    }
  }

  /** The store of the counterexample: alice, private, lets bob see her
      and holds the token `t`. */
  function AliceAndBob(): Store {
    Store([User("alice", "h", "a@x", "RU", false, None, None), User("bob", "h", "b@x", "RU", false, None, None)],
          map["t" := Token("alice", 0)], [FriendEdge("alice", "bob", 0)], [], [], [])
  }

  lemma AliceSignedIn()
    ensures Authenticate(Some("Bearer t"), AliceAndBob(), 0) == Admit("alice")
  {
    AnySchemeWord("Bearer", "t");
    assert "Bearer" + " " + "t" == "Bearer t";
  }

  lemma BobMatchesPattern()
    ensures First(AliceAndBob().friends, LikeFilter("alice", "b%")) == Some(0)
    ensures First(AliceAndBob().friends[1..], LikeFilter("alice", "b%")).None?
    ensures FindEdge(AliceAndBob().friends, "alice", "b%").None?
  {
    var edge := FriendEdge("alice", "bob", 0);
    assert LikeMatch("alice", "alice") by {
      PlainLikeIsEquality("alice", "alice");
    }
    assert LikeMatch("bob", "b%") by {
      PercentMatchesAll("ob");
      assert "bob"[1..] == "ob" && "b%"[1..] == "%";
    }
    LikeFilterHolds(edge, "alice", "b%");
    assert AliceAndBob().friends[1..] == [];
    assert edge.friend != "b%";
  }

  /** A wildcard in the body deletes an edge whose friend has another
      login: alice sends `b%` and her edge to bob is gone, although no
      user is called `b%`; the exact lookup leaves it in place. */
  lemma WildcardRemovesAnotherFriend()
    ensures RemoveFriendAsWritten(Some("Bearer t"), "b%", AliceAndBob(), 0)
              == Reply(Ok(()), AliceAndBob().(friends := []))
    ensures RemoveFriend(Some("Bearer t"), "b%", AliceAndBob(), 0) == Reply(Ok(()), AliceAndBob())
  {
    AliceSignedIn();
    BobMatchesPattern();
    assert RemoveAt(AliceAndBob().friends, 0) == [];
  }
}

=== FILE: header.dfy ===
/**
 * The `Authorization` header as the handlers read it: Python's
 * `str.split()` without a separator, which splits on runs of whitespace
 * and never yields an empty word.
 */
module Header {

  /** Whitespace for `str.split()`, restricted to ASCII: tab, line feed,
      vertical tab, form feed and carriage return (9-13), the information
      separators 0x1C-0x1F, and space (32). */
  predicate IsSpace(c: char) {
    (9 <= c as int <= 13) || (28 <= c as int <= 32)
  }

  /** A non-empty run of non-whitespace characters. */
  predicate IsWord(w: string) {
    |w| > 0 && forall i :: 0 <= i < |w| ==> !IsSpace(w[i])
  }

  /** `s` without its leading whitespace. */
  function TrimStart(s: string): (r: string)
    ensures |r| <= |s|
    ensures r == [] || !IsSpace(r[0])
  {
    if s != [] && IsSpace(s[0]) then TrimStart(s[1..]) else s
  }

  /** The longest prefix of `s` without whitespace. */
  function LeadingWord(s: string): (w: string)
    ensures |w| <= |s| && w == s[..|w|]
    ensures forall i :: 0 <= i < |w| ==> !IsSpace(w[i])
    ensures |w| == |s| || IsSpace(s[|w|])
  {
    if s == [] || IsSpace(s[0]) then [] else [s[0]] + LeadingWord(s[1..])
  }

  /** `s.split()`: the words of `s`, in order. */
  function Split(s: string): (ws: seq<string>)
    ensures forall i :: 0 <= i < |ws| ==> IsWord(ws[i])
    decreases |s|
  {
    var t := TrimStart(s);
    if t == [] then []
    else
      var w := LeadingWord(t);
      assert IsWord(w);
      var rest := Split(t[|w|..]);
      [w] + rest
  }

  /** Words joined by single spaces: `" ".join(ws)`. */
  function Join(ws: seq<string>): string {
    if |ws| == 0 then ""
    else if |ws| == 1 then ws[0]
    else ws[0] + " " + Join(ws[1..])
  }

  lemma {:induction false} LeadingWordOf(w: string, rest: string)
    requires IsWord(w)
    requires rest == [] || IsSpace(rest[0])
    ensures LeadingWord(w + rest) == w
  {
    assert (w + rest)[1..] == w[1..] + rest;
    if |w| == 1 {
      assert w[1..] + rest == rest;
      assert w == [w[0]];
    } else {
      LeadingWordOf(w[1..], rest);
      assert w == [w[0]] + w[1..];
    }
  }

  lemma SplitSkipsSpace(c: char, s: string)
    requires IsSpace(c)
    ensures Split([c] + s) == Split(s)
  {
    assert ([c] + s)[1..] == s;
  }

  /** A word followed by nothing or by whitespace splits off as the
      first word. */
  lemma SplitLeadingWord(w: string, rest: string)
    requires IsWord(w)
    requires rest == [] || IsSpace(rest[0])
    ensures Split(w + rest) == [w] + Split(rest)
  {
    var s := w + rest;
    assert s[0] == w[0];
    assert TrimStart(s) == s;
    LeadingWordOf(w, rest);
    assert s[|w|..] == rest;
  }

  /** Splitting undoes joining: a header built from words by single spaces
      splits back into exactly those words. */
  lemma {:induction false} SplitJoin(ws: seq<string>)
    requires forall i :: 0 <= i < |ws| ==> IsWord(ws[i])
    ensures Split(Join(ws)) == ws
  {
    if |ws| == 1 {
      SplitLeadingWord(ws[0], []);
      assert ws[0] + [] == ws[0];
    } else if |ws| > 1 {
      var w, rest := ws[0], Join(ws[1..]);
      assert w + " " + rest == w + ([' '] + rest);
      SplitLeadingWord(w, [' '] + rest);
      SplitSkipsSpace(' ', rest);
      SplitJoin(ws[1..]);
      assert ws == [w] + ws[1..];
    }
  }

  /** Only whitespace. */
  predicate AllSpace(s: string) {
    forall i :: 0 <= i < |s| ==> IsSpace(s[i])
  }

  /** Leading whitespace of any length is skipped. */
  lemma {:induction false} SplitSkipsSpaces(sp: string, s: string)
    requires AllSpace(sp)
    ensures Split(sp + s) == Split(s)
    decreases |sp|
  {
    if sp == [] {
      assert sp + s == s;
    } else {
      assert sp + s == [sp[0]] + (sp[1..] + s);
      SplitSkipsSpace(sp[0], sp[1..] + s);
      SplitSkipsSpaces(sp[1..], s);
    }
  }

  /** A word followed only by whitespace splits into that word. */
  lemma PaddedOneWord(token: string, trail: string)
    requires AllSpace(trail) && IsWord(token)
    ensures Split(token + trail) == [token]
  {
    SplitLeadingWord(token, trail);
    SplitSkipsSpaces(trail, []);
    assert trail + [] == trail;
    assert Split([]) == [];
  }

  /** A word, then whitespace, then a rest: the word, then the rest's words. */
  lemma WordSpacesRest(scheme: string, mid: string, tail: string)
    requires AllSpace(mid) && mid != [] && IsWord(scheme)
    ensures Split(scheme + (mid + tail)) == [scheme] + Split(tail)
  {
    var after := mid + tail;
    assert after[0] == mid[0];
    SplitLeadingWord(scheme, after);
    SplitSkipsSpaces(mid, tail);
  }

  lemma Regroup<T>(a: seq<T>, b: seq<T>, c: seq<T>, d: seq<T>, e: seq<T>)
    ensures a + b + c + d + e == a + (b + (c + (d + e)))
  {
  }

  /** Two words with any whitespace before, between and after them split
      into exactly those two words. */
  lemma PaddedTwoWords(lead: string, scheme: string, mid: string, token: string, trail: string)
    requires AllSpace(lead) && AllSpace(mid) && AllSpace(trail) && mid != []
    requires IsWord(scheme) && IsWord(token)
    ensures Split(lead + scheme + mid + token + trail) == [scheme, token]
  {
    var tail := token + trail;
    var body := scheme + (mid + tail);
    Regroup(lead, scheme, mid, token, trail);
    SplitSkipsSpaces(lead, body);
    WordSpacesRest(scheme, mid, tail);
    PaddedOneWord(token, trail);
  }

  /** A two-word header splits into its two words, whatever the first is. */
  lemma TwoWords(scheme: string, token: string)
    requires IsWord(scheme) && IsWord(token)
    ensures Split(scheme + " " + token) == [scheme, token]
  {
    assert Join([scheme, token]) == scheme + " " + Join([token]);
    SplitJoin([scheme, token]);
  }
}

=== FILE: listing.dfy ===
/**
 * How listings are ordered and cut: Python's `sorted(..., reverse=True)`
 * (a stable sort) and the slices `xs[offset:]` and `xs[:limit]`.
 *
 * Ordering is described by a total preorder `le`: `le(a, b)` means `a` may
 * come before `b`. Two elements are tied when each may come before the
 * other. A stable sort orders by `le` and keeps tied elements in their
 * input order.
 */
module Listing {
  import Validators

  /** `le` relates every pair one way or the other and is transitive. */
  ghost predicate TotalPreorder<T(!new)>(le: (T, T) -> bool) {
    && (forall a, b :: le(a, b) || le(b, a))
    && (forall a, b, c :: le(a, b) && le(b, c) ==> le(a, c))
  }

  ghost predicate Sorted<T>(xs: seq<T>, le: (T, T) -> bool) {
    forall i, j :: 0 <= i < j < |xs| ==> le(xs[i], xs[j])
  }

  predicate Tie<T>(le: (T, T) -> bool, a: T, b: T) {
    le(a, b) && le(b, a)
  }

  /** The elements of `xs` tied with `k`, in their order in `xs`. */
  function Tied<T>(xs: seq<T>, le: (T, T) -> bool, k: T): seq<T> {
    if xs == [] then []
    else if Tie(le, xs[0], k) then [xs[0]] + Tied(xs[1..], le, k)
    else Tied(xs[1..], le, k)
  }

  /** `r` is the stable sort of `xs` by `le`: ordered, and every class of
      tied elements appears in the order it has in `xs`. */
  ghost predicate IsStableSortOf<T(!new)>(r: seq<T>, xs: seq<T>, le: (T, T) -> bool) {
    Sorted(r, le) && forall k :: Tied(r, le, k) == Tied(xs, le, k)
  }

  /** Puts `x` in front of the first element it may precede. */
  function Insert<T>(ys: seq<T>, x: T, le: (T, T) -> bool): seq<T> {
    if ys == [] then [x]
    else if le(x, ys[0]) then [x] + ys
    else [ys[0]] + Insert(ys[1..], x, le)
  }

  /** Insertion sort; each element goes before the elements it ties with
      that follow it in the input, which keeps ties in input order. */
  function SortBy<T>(xs: seq<T>, le: (T, T) -> bool): seq<T> {
    if xs == [] then []
    else Insert(SortBy(xs[1..], le), xs[0], le)
  }

  lemma {:induction false} InsertPermutes<T>(ys: seq<T>, x: T, le: (T, T) -> bool)
    ensures multiset(Insert(ys, x, le)) == multiset(ys) + multiset{x}
  {
    if ys != [] && !le(x, ys[0]) {
      InsertPermutes(ys[1..], x, le);
      assert ys == [ys[0]] + ys[1..];
    }
  }

  /** The sort is a permutation of its input. */
  lemma {:induction false} SortByPermutes<T>(xs: seq<T>, le: (T, T) -> bool)
    ensures multiset(SortBy(xs, le)) == multiset(xs)
  {
    if xs != [] {
      SortByPermutes(xs[1..], le);
      InsertPermutes(SortBy(xs[1..], le), xs[0], le);
      assert xs == [xs[0]] + xs[1..];
    }
  }

  lemma {:induction false} TiedAppend<T>(a: seq<T>, b: seq<T>, le: (T, T) -> bool, k: T)
    ensures Tied(a + b, le, k) == Tied(a, le, k) + Tied(b, le, k)
  {
    if a == [] {
      assert a + b == b;
    } else {
      assert (a + b)[1..] == a[1..] + b;
      TiedAppend(a[1..], b, le, k);
      if Tie(le, a[0], k) {
        var ta, tb := Tied(a[1..], le, k), Tied(b, le, k);
        assert [a[0]] + (ta + tb) == ([a[0]] + ta) + tb;
      }
    }
  }

  lemma {:induction false} InsertSorted<T(!new)>(ys: seq<T>, x: T, le: (T, T) -> bool)
    requires TotalPreorder(le)
    requires Sorted(ys, le)
    ensures Sorted(Insert(ys, x, le), le)
  {
    if ys == [] || le(x, ys[0]) {
    } else {
      var rest := Insert(ys[1..], x, le);
      InsertSorted(ys[1..], x, le);
      InsertPermutes(ys[1..], x, le);
      assert le(ys[0], x);
      forall j | 0 <= j < |rest|
        ensures le(ys[0], rest[j])
      {
        assert rest[j] in multiset(ys[1..]) + multiset{x};
        if rest[j] in multiset(ys[1..]) {
          var m :| 0 <= m < |ys[1..]| && ys[1..][m] == rest[j];
          assert ys[m + 1] == rest[j];
        }
      }
    }
  }

  lemma {:induction false} InsertTied<T(!new)>(ys: seq<T>, x: T, le: (T, T) -> bool, k: T)
    requires TiesChain(le, k)
    ensures Tied(Insert(ys, x, le), le, k) == Tied([x], le, k) + Tied(ys, le, k)
  {
    if ys == [] {
      assert Insert(ys, x, le) == [x] + ys;
      TiedAppend([x], ys, le, k);
    } else if le(x, ys[0]) {
      assert Insert(ys, x, le) == [x] + ys;
      TiedAppend([x], ys, le, k);
    } else {
      InsertTied(ys[1..], x, le, k);
      InsertTiedBehind(ys, x, le, k);
    }
  }

  /** The inductive step of `InsertTied` when `x` goes behind the head. */
  lemma InsertTiedBehind<T(!new)>(ys: seq<T>, x: T, le: (T, T) -> bool, k: T)
    requires TiesChain(le, k)
    requires ys != [] && !le(x, ys[0])
    requires Tied(Insert(ys[1..], x, le), le, k) == Tied([x], le, k) + Tied(ys[1..], le, k)
    ensures Tied(Insert(ys, x, le), le, k) == Tied([x], le, k) + Tied(ys, le, k)
  {
    assert Insert(ys, x, le) == [ys[0]] + Insert(ys[1..], x, le);
    assert ys == [ys[0]] + ys[1..];
    NotBothTied(le, x, ys[0], k);
    ConsTied(ys[0], x, Insert(ys[1..], x, le), ys[1..], le, k);
  }

  /** Putting `y` in front of a list whose ties are those of `rest` plus
      `x` first, when `x` and `y` do not both tie with `k`. */
  lemma ConsTied<T>(y: T, x: T, zs: seq<T>, rest: seq<T>, le: (T, T) -> bool, k: T)
    requires Tied(zs, le, k) == Tied([x], le, k) + Tied(rest, le, k)
    requires Tied([x], le, k) == [] || Tied([y], le, k) == []
    ensures Tied([y] + zs, le, k) == Tied([x], le, k) + Tied([y] + rest, le, k)
  {
    TiedAppend([y], zs, le, k);
    TiedAppend([y], rest, le, k);
    if Tied([x], le, k) == [] {
      assert Tied(zs, le, k) == Tied(rest, le, k);
    } else {
      assert Tied([y] + zs, le, k) == Tied(zs, le, k);
      assert Tied([y] + rest, le, k) == Tied(rest, le, k);
    }
  }

  /** Whatever ties with `k` may precede whatever else ties with `k`. */
  ghost predicate TiesChain<T(!new)>(le: (T, T) -> bool, k: T) {
    forall a, b :: Tie(le, a, k) && Tie(le, b, k) ==> le(a, b)
  }

  lemma TotalPreorderTiesChain<T(!new)>(le: (T, T) -> bool, k: T)
    requires TotalPreorder(le)
    ensures TiesChain(le, k)
  {
    forall a, b | Tie(le, a, k) && Tie(le, b, k)
      ensures le(a, b)
    {
      assert le(a, k) && le(k, b);
    }
  }

  /** An element that strictly follows another cannot tie with what the
      other ties with. */
  lemma NotBothTied<T(!new)>(le: (T, T) -> bool, x: T, y: T, k: T)
    requires TiesChain(le, k)
    requires !le(x, y)
    ensures Tied([x], le, k) == [] || Tied([y], le, k) == []
  {
  }

  /** The insertion sort is a stable sort. */
  lemma {:induction false} SortByIsStable<T(!new)>(xs: seq<T>, le: (T, T) -> bool)
    requires TotalPreorder(le)
    ensures IsStableSortOf(SortBy(xs, le), xs, le)
  {
    if xs != [] {
      SortByIsStable(xs[1..], le);
      InsertSorted(SortBy(xs[1..], le), xs[0], le);
      forall k
        ensures Tied(SortBy(xs, le), le, k) == Tied(xs, le, k)
      {
        TotalPreorderTiesChain(le, k);
        InsertTied(SortBy(xs[1..], le), xs[0], le, k);
        TiedAppend([xs[0]], xs[1..], le, k);
        assert xs == [xs[0]] + xs[1..];
      }
    }
  }

  lemma {:induction false} TiedMembers<T>(xs: seq<T>, le: (T, T) -> bool, k: T, e: T)
    requires e in Tied(xs, le, k)
    ensures e in xs && Tie(le, e, k)
  {
    if xs != [] && !(Tie(le, xs[0], k) && e == xs[0]) {
      TiedMembers(xs[1..], le, k, e);
    }
  }

  /** There is only one stable sort of a sequence: the order of a listing
      is fully determined by `le` and the input order. */
  lemma {:induction false} StableSortUnique<T(!new)>(a: seq<T>, b: seq<T>, xs: seq<T>, le: (T, T) -> bool)
    requires TotalPreorder(le)
    requires IsStableSortOf(a, xs, le) && IsStableSortOf(b, xs, le)
    ensures a == b
  {
    SameTiesSameSort(a, b, le);
  }

  lemma {:induction false} SameTiesSameSort<T(!new)>(a: seq<T>, b: seq<T>, le: (T, T) -> bool)
    requires TotalPreorder(le)
    requires Sorted(a, le) && Sorted(b, le)
    requires forall k :: Tied(a, le, k) == Tied(b, le, k)
    ensures a == b
    decreases |a|
  {
    if a == [] && b == [] {
    } else {
      // a tie class of the first element of either side is non-empty on both
      assert a != [] && b != [] by {
        if a != [] {
          assert le(a[0], a[0]);
          assert Tied(a, le, a[0]) != [];
          assert Tied(b, le, a[0]) != [];
        }
        if b != [] {
          assert le(b[0], b[0]);
          assert Tied(b, le, b[0]) != [];
          assert Tied(a, le, b[0]) != [];
        }
      }
      var x, y := a[0], b[0];
      assert le(x, x) && le(y, y);
      // x ties with some element of b, and y comes no later than it
      assert x in Tied(a, le, x);
      TiedMembers(b, le, x, x);
      var j :| 0 <= j < |b| && b[j] == x;
      assert le(y, x);
      assert y in Tied(b, le, y);
      TiedMembers(a, le, y, y);
      var i :| 0 <= i < |a| && a[i] == y;
      assert le(x, y);
      assert Tied(a, le, x)[0] == x;
      assert Tied(b, le, x)[0] == y;
      assert x == y;
      forall k
        ensures Tied(a[1..], le, k) == Tied(b[1..], le, k)
      {
        var ta, tb := Tied(a, le, k), Tied(b, le, k);
        assert ta == tb;
        assert Tie(le, x, k) <==> Tie(le, y, k);
        if Tie(le, x, k) {
          assert ta == [x] + Tied(a[1..], le, k);
          assert tb == [y] + Tied(b[1..], le, k);
          assert Tied(a[1..], le, k) == ta[1..];
          assert Tied(b[1..], le, k) == tb[1..];
        } else {
          assert ta == Tied(a[1..], le, k);
          assert tb == Tied(b[1..], le, k);
        }
      }
      SameTiesSameSort(a[1..], b[1..], le);
      assert a == [x] + a[1..] && b == [y] + b[1..];
    }
  }

  function Min(a: int, b: int): int { if a <= b then a else b }
  function Max(a: int, b: int): int { if a >= b then a else b }

  /** Python `xs[k:]` for any integer `k`: a negative `k` counts from the end. */
  function SliceFrom<T>(xs: seq<T>, k: int): seq<T> {
    if k >= 0 then xs[Min(k, |xs|)..] else xs[Max(0, |xs| + k)..]
  }

  /** Python `xs[:k]` for any integer `k`: a negative `k` drops `-k` from the end. */
  function SliceTo<T>(xs: seq<T>, k: int): seq<T> {
    if k >= 0 then xs[..Min(k, |xs|)] else xs[..Max(0, |xs| + k)]
  }

  /** `xs[offset:][:limit]`, the page the listings return. */
  function Page<T>(xs: seq<T>, offset: int, limit: int): seq<T> {
    SliceTo(SliceFrom(xs, offset), limit)
  }

  /** With a non-negative offset and limit a page skips `offset` elements
      and holds `min(limit, max(0, n - offset))` of them, in order. */
  lemma PageWindow<T>(xs: seq<T>, offset: int, limit: int)
    requires offset >= 0 && limit >= 0
    ensures |Page(xs, offset, limit)| == Min(limit, Max(0, |xs| - offset))
    ensures forall i :: 0 <= i < |Page(xs, offset, limit)| ==> Page(xs, offset, limit)[i] == xs[offset + i]
  {
  }

  /** Bounds that pass `validate_limit` and `validate_offset` cut at most
      50 elements, the window that starts at `offset`. */
  lemma ValidatedPage<T>(xs: seq<T>, limit: int, offset: int)
    requires Validators.ValidLimit(limit) && Validators.ValidOffset(offset)
    ensures |Page(xs, offset, limit)| <= 50
    ensures |Page(xs, offset, limit)| == Min(limit, Max(0, |xs| - offset))
    ensures forall i :: 0 <= i < |Page(xs, offset, limit)| ==> Page(xs, offset, limit)[i] == xs[offset + i]
  {
    PageWindow(xs, offset, limit);
  }

  /** Without validation a negative limit does not give an empty page:
      `xs[:-1]` drops only the last element. */
  lemma NegativeLimitDropsLast<T>(xs: seq<T>)
    requires |xs| > 0
    ensures Page(xs, 0, -1) == xs[..|xs| - 1]
  {
  }

  /** ... and a negative offset starts from the end: `xs[-1:]` is the last element. */
  lemma NegativeOffsetTakesLast<T>(xs: seq<T>, limit: int)
    requires |xs| > 0 && limit >= 1
    ensures Page(xs, -1, limit) == [xs[|xs| - 1]]
  {
  }
}

=== FILE: outcomes.dfy ===
/**
 * Shared vocabulary of the service: optional values, the reasons the
 * handlers report (reasons.py), the HTTP statuses they use, and the
 * outcome a handler produces.
 */
module Outcomes {

  /** Python's `None` or a value: nullable columns and optional request fields. */
  datatype Option<+T> = None | Some(value: T) {

    /** The value, or `default` when there is none. */
    function GetOr(default: T): T {
      match this
      case Some(v) => v
      case None => default
    }
  }

  /** The reason texts of reasons.py, by name. */
  datatype Reason =
    | InvalidToken          // the token does not exist or is malformed
    | InvalidLoginPassword  // no user with that login and password
    | InvalidData           // the data does not have the expected shape
    | InvalidUnique         // login, email or phone already taken
    | InvalidAlpha2         // no country with that code

  const BadRequest := 400
  const Unauthorized := 401
  const Forbidden := 403
  const NotFound := 404
  const Conflict := 409

  /**
   * What a handler answers: a payload (status 200 or 201), an error
   * response with its status and reason, or an uncaught exception, which
   * the framework turns into a 500.
   */
  datatype Outcome<+T> = Ok(value: T) | Fail(status: int, reason: Reason) | Crash

  /** The one answer every session failure collapses to. */
  function Denied<T>(): Outcome<T> {
    Fail(Unauthorized, InvalidToken)
  }
}

=== FILE: reactions.dfy ===
/**
 * Likes and dislikes (`post_like_post`, `post_dislike_post` and the crud.py
 * steps they use). Each (post, login) pair is in one of three states; a
 * reaction creates a mark only when there is none, flips it when it
 * points the other way, and does nothing when it already points this way.
 * The post's counters always equal the numbers of marks of each kind.
 */
module Reactions {
  import opened Outcomes
  import opened Store
  import opened Session
  import opened Visibility

  datatype ReactionState = NoMark | Liked | Disliked

  /** The state of `login`'s reaction to post `postId`. */
  function MarkState(marks: seq<Mark>, postId: string, login: Login): ReactionState {
    match FindMark(marks, postId, login)
    case None => NoMark
    case Some(j) => if marks[j].liked then Liked else Disliked
  }

  /** The state a reaction in direction `like` leads to. */
  function Target(like: bool): ReactionState {
    if like then Liked else Disliked
  }

  lemma FindMarkAppend(marks: seq<Mark>, m: Mark, postId: string, login: Login)
    ensures FindMark(marks + [m], postId, login) ==
      if FindMark(marks, postId, login).Some? then FindMark(marks, postId, login)
      else if m.postId == postId && m.login == login then Some(|marks|)
      else None
  {
    var ms := marks + [m];
    assert forall k :: 0 <= k < |marks| ==> ms[k] == marks[k];
    var r := FindMark(marks, postId, login);
    if r.Some? {
      assert ms[r.value].postId == postId && ms[r.value].login == login;
      assert forall k :: 0 <= k < r.value ==> !(ms[k].postId == postId && ms[k].login == login);
    } else {
      assert ms[|marks|] == m;
      assert forall k :: 0 <= k < |marks| ==> !(ms[k].postId == postId && ms[k].login == login);
    }
  }

  lemma FindMarkSameKeys(a: seq<Mark>, b: seq<Mark>, postId: string, login: Login)
    requires |a| == |b|
    requires forall k :: 0 <= k < |a| ==> a[k].postId == b[k].postId && a[k].login == b[k].login
    ensures FindMark(a, postId, login) == FindMark(b, postId, login)
  {
    var ra, rb := FindMark(a, postId, login), FindMark(b, postId, login);
    if ra.Some? {
      assert b[ra.value].postId == postId && b[ra.value].login == login;
    }
    if rb.Some? {
      assert a[rb.value].postId == postId && a[rb.value].login == login;
    }
  }

  /** Counting marks: appending one adds it to its own class. */
  lemma CountAppend(marks: seq<Mark>, m: Mark, postId: string, liked: bool)
    ensures CountMarks(marks + [m], postId, liked) ==
      CountMarks(marks, postId, liked) + (if m.postId == postId && m.liked == liked then 1 else 0)
  {
    assert (marks + [m])[..|marks|] == marks;
  }

  function Counted(m: Mark, postId: string, liked: bool): int {
    if m.postId == postId && m.liked == liked then 1 else 0
  }

  /** Counting marks: replacing one moves it from its old class to its new one. */
  lemma {:induction false} CountUpdate(marks: seq<Mark>, j: nat, m: Mark, postId: string, liked: bool)
    requires j < |marks|
    ensures CountMarks(marks[j := m], postId, liked) ==
      CountMarks(marks, postId, liked) - Counted(marks[j], postId, liked) + Counted(m, postId, liked)
  {
    var n := |marks|;
    var ms := marks[j := m];
    if j == n - 1 {
      assert ms[..n - 1] == marks[..n - 1];
    } else {
      assert ms[..n - 1] == marks[..n - 1][j := m];
      CountUpdate(marks[..n - 1], j, m, postId, liked);
    }
  }

  /** Two counter steps on the same post add up. */
  lemma AdjustTwice(posts: seq<Post>, id: string, a: int, b: int, c: int, d: int)
    ensures Adjust(Adjust(posts, id, a, b), id, c, d) == Adjust(posts, id, a + c, b + d)
  {
  }

  /**
   * The mark logic the like and dislike handlers share, with
   * `like == true` for a like: create the mark and count it; or, when the
   * mark points the other way, flip it and move one unit between the
   * counters; or, when it already points this way, change nothing.
   */
  function React(s: Store, postId: string, viewer: Login, like: bool): (r: Store)
    ensures MarkState(r.marks, postId, viewer) == Target(like)
    ensures MarkState(s.marks, postId, viewer) == Target(like) ==> r == s
    ensures r.users == s.users && r.tokens == s.tokens && r.friends == s.friends && r.countries == s.countries
    ensures forall p, l :: !(p == postId && l == viewer) ==> MarkState(r.marks, p, l) == MarkState(s.marks, p, l)
    ensures |r.posts| == |s.posts|
    ensures forall k :: 0 <= k < |s.posts| ==>
      r.posts[k].(likesCount := s.posts[k].likesCount, dislikesCount := s.posts[k].dislikesCount) == s.posts[k]
    ensures forall k :: 0 <= k < |s.posts| && s.posts[k].id != postId ==> r.posts[k] == s.posts[k]
  {
    match FindMark(s.marks, postId, viewer)
    case None =>
      var m := Mark(postId, viewer, like);
      FindMarkAppend(s.marks, m, postId, viewer);
      assert forall p, l :: FindMark(s.marks + [m], p, l) == FindMark(s.marks, p, l) || (p == postId && l == viewer) by {
        forall p, l { FindMarkAppend(s.marks, m, p, l); }
      }
      s.(marks := s.marks + [m],
         posts := if like then IncrementLike(s.posts, postId) else IncrementDislike(s.posts, postId))
    case Some(j) =>
      if s.marks[j].liked == like then s
      else
        var marks' := ChangeMark(s.marks, postId, viewer);
        assert forall p, l :: FindMark(marks', p, l) == FindMark(s.marks, p, l) by {
          forall p, l { FindMarkSameKeys(marks', s.marks, p, l); }
        }
        s.(marks := marks',
           posts := if like then DecrementDislike(IncrementLike(s.posts, postId), postId)
                    else DecrementLike(IncrementDislike(s.posts, postId), postId))
  }

  /**
   * The state machine, row by row, on the counters of the post: from
   * NoMark a reaction adds one to its own counter; repeating the current
   * direction changes nothing; switching direction adds one to the new
   * counter and takes one from the old.
   */
  lemma ReactionTable(s: Store, postId: string, viewer: Login, like: bool, i: nat)
    requires i < |s.posts| && s.posts[i].id == postId
    ensures var r := React(s, postId, viewer, like);
      var before := MarkState(s.marks, postId, viewer);
      var dl := r.posts[i].likesCount - s.posts[i].likesCount;
      var dd := r.posts[i].dislikesCount - s.posts[i].dislikesCount;
      && (before == NoMark ==> (if like then dl == 1 && dd == 0 else dl == 0 && dd == 1))
      && (before == Target(like) ==> dl == 0 && dd == 0)
      && (before == Target(!like) ==> (if like then dl == 1 && dd == -1 else dl == -1 && dd == 1))
  {
    AdjustTwice(s.posts, postId, 1, 0, 0, -1);
    AdjustTwice(s.posts, postId, 0, 1, -1, 0);
  }

  /** Reacting twice the same way is reacting once. */
  lemma ReactIdempotent(s: Store, postId: string, viewer: Login, like: bool)
    ensures React(React(s, postId, viewer, like), postId, viewer, like) == React(s, postId, viewer, like)
  {
  }

  /** A counter step keeps the posts table well formed and every post id. */
  lemma AdjustKeepsPosts(s: Store, id: string, dl: int, dd: int)
    requires PostsWellFormed(s)
    ensures PostsWellFormed(s.(posts := Adjust(s.posts, id, dl, dd)))
    ensures forall pid :: HasPost(s.posts, pid) ==> HasPost(Adjust(s.posts, id, dl, dd), pid)
  {
    var ps := Adjust(s.posts, id, dl, dd);
    forall pid | HasPost(s.posts, pid)
      ensures HasPost(ps, pid)
    {
      var k :| 0 <= k < |s.posts| && s.posts[k].id == pid;
      assert ps[k].id == pid;
    }
  }

  /** A new mark for a pair without one, on an existing post, keeps the
      marks well formed. */
  lemma AppendKeepsMarks(s: Store, m: Mark)
    requires MarksWellFormed(s)
    requires HasPost(s.posts, m.postId)
    requires FindMark(s.marks, m.postId, m.login).None?
    ensures MarksWellFormed(s.(marks := s.marks + [m]))
  {
    var ms := s.marks + [m];
    assert forall k :: 0 <= k < |s.marks| ==> ms[k] == s.marks[k];
  }

  /** Flipping a mark keeps the marks well formed: its post and login stay. */
  lemma FlipKeepsMarks(s: Store, j: nat, m: Mark)
    requires MarksWellFormed(s)
    requires j < |s.marks| && m.postId == s.marks[j].postId && m.login == s.marks[j].login
    ensures MarksWellFormed(s.(marks := s.marks[j := m]))
  {
  }

  /** Counting a new mark on its post's counter keeps the counters right. */
  lemma {:induction false} AppendKeepsCounters(posts: seq<Post>, marks: seq<Mark>, m: Mark)
    requires CountersAgree(posts, marks)
    ensures var dl, dd := if m.liked then 1 else 0, if m.liked then 0 else 1;
      CountersAgree(Adjust(posts, m.postId, dl, dd), marks + [m])
  {
    var dl, dd := if m.liked then 1 else 0, if m.liked then 0 else 1;
    var ps := Adjust(posts, m.postId, dl, dd);
    forall k | 0 <= k < |ps|
      ensures ps[k].likesCount == CountMarks(marks + [m], ps[k].id, true)
      ensures ps[k].dislikesCount == CountMarks(marks + [m], ps[k].id, false)
    {
      CountAppend(marks, m, posts[k].id, true);
      CountAppend(marks, m, posts[k].id, false);
    }
  }

  /** Flipping a mark and moving one unit between its post's counters
      keeps the counters right. */
  lemma {:induction false} FlipKeepsCounters(posts: seq<Post>, marks: seq<Mark>, j: nat)
    requires CountersAgree(posts, marks)
    requires j < |marks|
    ensures var m := marks[j].(liked := !marks[j].liked);
      var dl, dd := if m.liked then 1 else -1, if m.liked then -1 else 1;
      CountersAgree(Adjust(posts, m.postId, dl, dd), marks[j := m])
  {
    var m := marks[j].(liked := !marks[j].liked);
    var dl, dd := if m.liked then 1 else -1, if m.liked then -1 else 1;
    var ps := Adjust(posts, m.postId, dl, dd);
    forall k | 0 <= k < |ps|
      ensures ps[k].likesCount == CountMarks(marks[j := m], ps[k].id, true)
      ensures ps[k].dislikesCount == CountMarks(marks[j := m], ps[k].id, false)
    {
      CountUpdate(marks, j, m, posts[k].id, true);
      CountUpdate(marks, j, m, posts[k].id, false);
    }
  }

  /** Recording a new mark and counting it keeps the store invariant. */
  lemma AppendMarkKeepsValid(s: Store, m: Mark)
    requires Valid(s)
    requires HasPost(s.posts, m.postId)
    requires FindMark(s.marks, m.postId, m.login).None?
    ensures var dl, dd := if m.liked then 1 else 0, if m.liked then 0 else 1;
      Valid(s.(marks := s.marks + [m], posts := Adjust(s.posts, m.postId, dl, dd)))
  {
    var dl, dd := if m.liked then 1 else 0, if m.liked then 0 else 1;
    AdjustKeepsPosts(s, m.postId, dl, dd);
    AppendKeepsMarks(s, m);
    AppendKeepsCounters(s.posts, s.marks, m);
  }

  /** Flipping a mark and moving one unit between the counters keeps the
      store invariant. */
  lemma FlipMarkKeepsValid(s: Store, j: nat)
    requires Valid(s)
    requires j < |s.marks|
    ensures var m := s.marks[j].(liked := !s.marks[j].liked);
      var dl, dd := if m.liked then 1 else -1, if m.liked then -1 else 1;
      Valid(s.(marks := s.marks[j := m], posts := Adjust(s.posts, m.postId, dl, dd)))
  {
    var m := s.marks[j].(liked := !s.marks[j].liked);
    var dl, dd := if m.liked then 1 else -1, if m.liked then -1 else 1;
    AdjustKeepsPosts(s, m.postId, dl, dd);
    FlipKeepsMarks(s, j, m);
    FlipKeepsCounters(s.posts, s.marks, j);
  }

  /** Flipping the mark at `j` is one mark replacement and one combined
      counter step. */
  lemma FlipShape(s: Store, postId: string, viewer: Login, like: bool, j: nat)
    requires FindMark(s.marks, postId, viewer) == Some(j)
    requires s.marks[j].liked != like
    ensures var dl, dd := if like then 1 else -1, if like then -1 else 1;
      React(s, postId, viewer, like)
        == s.(marks := s.marks[j := s.marks[j].(liked := like)], posts := Adjust(s.posts, postId, dl, dd))
  {
    var dl, dd := if like then 1 else -1, if like then -1 else 1;
    AdjustTwice(s.posts, postId, 1, 0, 0, -1);
    AdjustTwice(s.posts, postId, 0, 1, -1, 0);
    assert ChangeMark(s.marks, postId, viewer) == s.marks[j := s.marks[j].(liked := like)];
    if like {
      assert DecrementDislike(IncrementLike(s.posts, postId), postId) == Adjust(s.posts, postId, dl, dd);
    } else {
      assert DecrementLike(IncrementDislike(s.posts, postId), postId) == Adjust(s.posts, postId, dl, dd);
    }
  }

  /** A reaction keeps the store invariant: one mark per (post, login),
      counters equal to the marks, marks on existing posts. */
  lemma ReactKeepsValid(s: Store, postId: string, viewer: Login, like: bool)
    ensures Valid(s) && HasPost(s.posts, postId) ==> Valid(React(s, postId, viewer, like))
  {
    if !(Valid(s) && HasPost(s.posts, postId)) { return; }
    match FindMark(s.marks, postId, viewer)
    case None =>
      var m := Mark(postId, viewer, like);
      var dl, dd := if like then 1 else 0, if like then 0 else 1;
      assert React(s, postId, viewer, like) == s.(marks := s.marks + [m], posts := Adjust(s.posts, postId, dl, dd));
      AppendMarkKeepsValid(s, m);
    case Some(j) =>
      if s.marks[j].liked != like {
        FlipShape(s, postId, viewer, like, j);
        FlipMarkKeepsValid(s, j);
      }
  }

  /** Counters count marks, so no reaction drives one below zero. */
  lemma CountersStayNonNegative(s: Store, postId: string, viewer: Login, like: bool)
    requires Valid(s) && HasPost(s.posts, postId)
    ensures var r := React(s, postId, viewer, like);
      forall i :: 0 <= i < |r.posts| ==> r.posts[i].likesCount >= 0 && r.posts[i].dislikesCount >= 0
  {
    ReactKeepsValid(s, postId, viewer, like);
  }

  lemma FindPostSameIds(a: seq<Post>, b: seq<Post>, id: string)
    requires |a| == |b|
    requires forall k :: 0 <= k < |a| ==> a[k].id == b[k].id
    ensures FindPost(a, id) == FindPost(b, id)
  {
    var ra, rb := FindPost(a, id), FindPost(b, id);
    if ra.Some? {
      assert b[ra.value].id == id;
    }
    if rb.Some? {
      assert a[rb.value].id == id;
    }
  }

  /**
   * The body `post_like_post` (`like == true`) and `post_dislike_post`
   * share: the gate, then an unknown post is a 404, then the author is
   * looked up (a missing author raises), then a viewer who may see the
   * author's posts reacts and gets the post as it now stands; anyone else
   * gets the same 404 as for an unknown post.
   */
  function ReactTo(header: Option<string>, postId: string, s: Store, now: int, like: bool): (r: Reply<Post>)
    ensures var g := Authenticate(header, s, now);
      g.Refuse? ==> r == Reply(Denied(), g.store)
    ensures var g := Authenticate(header, s, now);
      g.Admit? ==>
        && (FindPost(s.posts, postId).None? ==> r == Reply(Fail(NotFound, InvalidData), s))
        && (AuthorOf(s, postId).Some? && CanView(s, g.login, AuthorOf(s, postId).value) ==>
              && r.store == React(s, postId, g.login, like)
              && r.out == Ok(r.store.posts[FindPost(s.posts, postId).value]))
        && (AuthorOf(s, postId).Some? && !CanView(s, g.login, AuthorOf(s, postId).value) ==>
              r == Reply(Fail(NotFound, InvalidData), s))
        && (r.out.Crash? <==> FindPost(s.posts, postId).Some? && AuthorOf(s, postId).None?)
    ensures Valid(s) ==> !r.out.Crash? && Valid(r.store)
  {
    AuthenticateKeepsValid(header, s, now);
    match Authenticate(header, s, now)
    case Refuse(s') => Reply(Denied(), s')
    case Admit(viewer) =>
      match FindPost(s.posts, postId)
      case None => Reply(Fail(NotFound, InvalidData), s)
      case Some(i) =>
        match UserNamed(s, s.posts[i].author)
        case None => Reply(Crash, s)
        case Some(author) =>
          if Permits(s, viewer, author) then
            var s' := React(s, postId, viewer, like);
            ReactKeepsValid(s, postId, viewer, like);
            Reply(Ok(s'.posts[i]), s')
          else Reply(Fail(NotFound, InvalidData), s)
  }

  /** The post a successful reaction returns carries counters equal to the
      marks now recorded against it. */
  lemma ReplyShowsCounts(header: Option<string>, postId: string, s: Store, now: int, like: bool)
    ensures var r := ReactTo(header, postId, s, now, like);
      Valid(s) && r.out.Ok? ==>
        && r.out.value.id == postId
        && r.out.value.likesCount == CountMarks(r.store.marks, postId, true)
        && r.out.value.dislikesCount == CountMarks(r.store.marks, postId, false)
  {
    var r := ReactTo(header, postId, s, now, like);
    if Valid(s) && r.out.Ok? {
      var viewer := Authenticate(header, s, now).login;
      var i := FindPost(s.posts, postId).value;
      ReactKeepsValid(s, postId, viewer, like);
      assert r.store == React(s, postId, viewer, like);
      assert r.out.value == r.store.posts[i];
      assert CountersAgree(r.store.posts, r.store.marks);
    }
  }

  /** `post_like_post`. */
  function LikePost(header: Option<string>, postId: string, s: Store, now: int): (r: Reply<Post>)
    ensures var g := Authenticate(header, s, now);
      r.out.Ok? ==> g.Admit? && MarkState(r.store.marks, postId, g.login) == Liked
    ensures Valid(s) && r.out.Ok? ==>
      && r.out.value.id == postId
      && r.out.value.likesCount == CountMarks(r.store.marks, postId, true)
      && r.out.value.dislikesCount == CountMarks(r.store.marks, postId, false)
    ensures Valid(s) ==> !r.out.Crash? && Valid(r.store)
  {
    ReplyShowsCounts(header, postId, s, now, true);
    ReactTo(header, postId, s, now, true)
  }

  /** `post_dislike_post`: the mirror image of `LikePost`. */
  function DislikePost(header: Option<string>, postId: string, s: Store, now: int): (r: Reply<Post>)
    ensures var g := Authenticate(header, s, now);
      r.out.Ok? ==> g.Admit? && MarkState(r.store.marks, postId, g.login) == Disliked
    ensures Valid(s) && r.out.Ok? ==>
      && r.out.value.id == postId
      && r.out.value.likesCount == CountMarks(r.store.marks, postId, true)
      && r.out.value.dislikesCount == CountMarks(r.store.marks, postId, false)
    ensures Valid(s) ==> !r.out.Crash? && Valid(r.store)
  {
    ReplyShowsCounts(header, postId, s, now, false);
    ReactTo(header, postId, s, now, false)
  }

  /** Sending the same reaction again with the same credentials at the same
      moment changes nothing and returns the same answer. */
  lemma {:induction false} RepeatedReactionIsNoOp(header: Option<string>, postId: string, s: Store, now: int, like: bool)
    requires Authenticate(header, s, now).Admit?
    ensures var r := ReactTo(header, postId, s, now, like);
      ReactTo(header, postId, r.store, now, like) == r
  {
    var r := ReactTo(header, postId, s, now, like);
    var viewer := Authenticate(header, s, now).login;
    if AuthorOf(s, postId).Some? && CanView(s, viewer, AuthorOf(s, postId).value) {
      var s' := r.store;
      assert Presented(header, s') == Presented(header, s);
      FindPostSameIds(s'.posts, s.posts, postId);
      ReactIdempotent(s, postId, viewer, like);
    }
  }
}

=== FILE: session.dfy ===
/**
 * The session gate every authenticated handler of main.py opens with, and
 * the two operations that create and revoke sessions (sign-in and the
 * password change's revocation).
 */
module Session {
  import opened Outcomes
  import opened Store
  import Header
  import Validators

  /** Session lifetime in seconds (`DAY_TIME`, 24 hours). */
  const DayTime := 86400

  /** The token value an `Authorization` header carries: the second of
      exactly two whitespace-separated words. The first word is never
      looked at. */
  function BearerToken(header: Option<string>): (r: Option<string>)
    ensures r.Some? ==> Header.IsWord(r.value)
    ensures r.Some? <==> header.Some? && |Header.Split(header.value)| == 2
    ensures r.Some? ==> r.value == Header.Split(header.value)[1]
  {
    if header.None? then None
    else
      var words := Header.Split(header.value);
      if |words| != 2 then None else Some(words[1])
  }

  /** Whatever the first word, a two-word header yields its second word. */
  lemma AnySchemeWord(scheme: string, token: string)
    requires Header.IsWord(scheme) && Header.IsWord(token)
    ensures BearerToken(Some(scheme + " " + token)) == Some(token)
  {
    Header.TwoWords(scheme, token);
  }

  /** Extra whitespace around and between the two words changes nothing:
      the token is still the second word. */
  lemma PaddedHeader(lead: string, scheme: string, mid: string, token: string, trail: string)
    requires Header.AllSpace(lead) && Header.AllSpace(mid) && Header.AllSpace(trail) && mid != []
    requires Header.IsWord(scheme) && Header.IsWord(token)
    ensures BearerToken(Some(lead + scheme + mid + token + trail)) == Some(token)
  {
    Header.PaddedTwoWords(lead, scheme, mid, token, trail);
  }

  /** A token still authorizes at `now` while it is younger than a day. */
  predicate Fresh(t: Token, now: int) {
    now - t.issuedAt < DayTime
  }

  /** The token value a request presents, when the store knows it. */
  function Presented(header: Option<string>, s: Store): Option<string> {
    var v := BearerToken(header);
    if v.Some? && v.value in s.tokens then v else None
  }

  /** Result of the gate: the session's login, or refusal with the store
      as the gate leaves it. */
  datatype Gate = Admit(login: Login) | Refuse(store: Store)

  /**
   * The gate: a missing header, a header that is not two words, an
   * unknown token and an expired token are all refused alike. An expired
   * token is deleted when it is presented; nothing else changes.
   */
  function Authenticate(header: Option<string>, s: Store, now: int): (g: Gate)
    ensures g.Admit? <==> Presented(header, s).Some? && Fresh(s.tokens[Presented(header, s).value], now)
    ensures g.Admit? ==> g.login == s.tokens[Presented(header, s).value].login
    ensures g.Refuse? && Presented(header, s).Some? ==>
              g.store == s.(tokens := s.tokens - {Presented(header, s).value})
    ensures g.Refuse? && Presented(header, s).None? ==> g.store == s
  {
    match BearerToken(header)
    case None => Refuse(s)
    case Some(value) =>
      if value !in s.tokens then Refuse(s)
      else
        var token := s.tokens[value];
        if now - token.issuedAt >= DayTime then
          Refuse(s.(tokens := s.tokens - {value}))
        else
          Admit(token.login)
  }

  /** The expiry boundary: a token exactly a day old is refused and
      deleted; one second younger it is accepted. */
  lemma ExpiryBoundary(header: Option<string>, s: Store, now: int)
    requires Presented(header, s).Some?
    ensures var t := Presented(header, s).value;
      && (now - s.tokens[t].issuedAt == DayTime ==>
            Authenticate(header, s, now) == Refuse(s.(tokens := s.tokens - {t})))
      && (now - s.tokens[t].issuedAt == DayTime - 1 ==>
            Authenticate(header, s, now) == Admit(s.tokens[t].login))
  {
  }

  /** Once refused, a presented expired token stays refused: it is gone. */
  lemma ExpiredStaysRefused(header: Option<string>, s: Store, now: int, later: int)
    requires Authenticate(header, s, now).Refuse?
    ensures Authenticate(header, Authenticate(header, s, now).store, later).Refuse?
  {
  }

  /** The gate keeps the store invariant (it only ever deletes a token). */
  lemma AuthenticateKeepsValid(header: Option<string>, s: Store, now: int)
    ensures Valid(s) && Authenticate(header, s, now).Refuse? ==> Valid(Authenticate(header, s, now).store)
    ensures Valid(s) && Authenticate(header, s, now).Admit? ==> HasUser(s.users, Authenticate(header, s, now).login)
  {
  }

  /**
   * `post_sing_in`: an unknown login or a wrong password is refused with
   * the same reason; a malformed password is rejected between the two
   * checks. On success a token with value `tokenValue` (the generated uuid),
   * issued at `now`, is stored; the token value is unique in the tokens
   * table, so a value already in use makes the insert raise.
   */
  function SignIn(login: Login, password: string, s: Store, now: int, tokenValue: string,
                  hash: string -> string): (r: Reply<string>)
    ensures var granted :=
      && FindUser(s.users, login).Some?
      && Validators.ValidPassword(password)
      && hash(password) == s.users[FindUser(s.users, login).value].password;
      && (r.out.Ok? <==> granted && tokenValue !in s.tokens)
      && (r.out.Crash? <==> granted && tokenValue in s.tokens)
    ensures r.out.Ok? ==> r.out.value == tokenValue && r.store == s.(tokens := s.tokens[tokenValue := Token(login, now)])
    ensures !r.out.Ok? ==> r.store == s
    ensures FindUser(s.users, login).None? ==> r.out == Fail(Unauthorized, InvalidLoginPassword)
    ensures FindUser(s.users, login).Some? && !Validators.ValidPassword(password) ==> r.out == Fail(BadRequest, InvalidData)
    ensures FindUser(s.users, login).Some? && Validators.ValidPassword(password)
              && hash(password) != s.users[FindUser(s.users, login).value].password ==>
              r.out == Fail(Unauthorized, InvalidLoginPassword)
    ensures Valid(s) ==> Valid(r.store)
  {
    match FindUser(s.users, login)
    case None => Reply(Fail(Unauthorized, InvalidLoginPassword), s)
    case Some(i) =>
      if !Validators.ValidPassword(password) then Reply(Fail(BadRequest, InvalidData), s)
      else if hash(password) != s.users[i].password then Reply(Fail(Unauthorized, InvalidLoginPassword), s)
      else if tokenValue in s.tokens then Reply(Crash, s)
      else Reply(Ok(tokenValue), s.(tokens := s.tokens[tokenValue := Token(login, now)]))
  }

  /** A new session works with any scheme word for exactly one day. */
  lemma SignInSessionLasts(login: Login, password: string, s: Store, now: int, tokenValue: string,
                           hash: string -> string, scheme: string, later: int)
    requires Header.IsWord(scheme) && Header.IsWord(tokenValue)
    requires SignIn(login, password, s, now, tokenValue, hash).out.Ok?
    requires now <= later
    ensures var s' := SignIn(login, password, s, now, tokenValue, hash).store;
      Authenticate(Some(scheme + " " + tokenValue), s', later) ==
        (if later < now + DayTime then Admit(login) else Refuse(s))
  {
    AnySchemeWord(scheme, tokenValue);
    var s' := SignIn(login, password, s, now, tokenValue, hash).store;
    assert s'.tokens - {tokenValue} == s.tokens;
    assert s'.(tokens := s.tokens) == s;
  }

  /** After `delete_tokens_by_login`, no request can authenticate as that
      login, and requests of other logins authenticate as before. */
  lemma RevokedLoginRefused(header: Option<string>, s: Store, login: Login, now: int)
    ensures var s' := s.(tokens := DeleteTokensByLogin(s.tokens, login));
      && !(Authenticate(header, s', now).Admit? && Authenticate(header, s', now).login == login)
      && (Authenticate(header, s, now).Admit? && Authenticate(header, s, now).login != login ==>
            Authenticate(header, s', now) == Authenticate(header, s, now))
  {
  }
}

=== FILE: store.dfy ===
/**
 * The persistent state of the service (models.py) and the store
 * transitions of crud.py, over an abstract store instead of SQL tables.
 *
 * Tables are sequences in insertion order, which is the order a query
 * without `ORDER BY` returns here; tokens are keyed by their value, which
 * the schema declares unique.
 */
module Store {
  import opened Outcomes

  type Login = string

  /** A row of `users`. `password` holds the digest of the password. */
  datatype User = User(
    login: Login,
    password: string,
    email: string,
    countryCode: string,
    isPublic: bool,
    phone: Option<string>,
    image: Option<string>)

  /** A row of `tokens`, keyed by its value; `issuedAt` in whole seconds. */
  datatype Token = Token(login: Login, issuedAt: int)

  /** A row of `friends`: `login` has listed `friend`. Directed. */
  datatype FriendEdge = FriendEdge(login: Login, friend: Login, addedAt: int)

  /** A row of `posts`; `createdAt` is the timestamp as an ordered key. */
  datatype Post = Post(
    id: string,
    content: string,
    author: Login,
    tags: seq<string>,
    createdAt: int,
    likesCount: int,
    dislikesCount: int)

  /** A row of `marks`: `login` liked (`liked`) or disliked post `postId`. */
  datatype Mark = Mark(postId: string, login: Login, liked: bool)

  /** A row of `countries`. */
  datatype Country = Country(name: string, alpha2: string, alpha3: string, region: Option<string>)

  datatype Store = Store(
    users: seq<User>,
    tokens: map<string, Token>,
    friends: seq<FriendEdge>,
    posts: seq<Post>,
    marks: seq<Mark>,
    countries: seq<Country>)

  /** A handler's answer and the store after the request. */
  datatype Reply<+T> = Reply(out: Outcome<T>, store: Store)

  /** The fields of a profile update (`UpdateProfile`); `None` means "not sent". */
  datatype ProfileUpdate = ProfileUpdate(
    countryCode: Option<string>,
    isPublic: Option<bool>,
    phone: Option<string>,
    image: Option<string>)

  // ---------------------------------------------------------------------
  // Lookups: `select ... where ...` followed by `one_or_none()`.

  /** The index of the first element satisfying `p`. */
  function First<T>(xs: seq<T>, p: T -> bool): (r: Option<nat>)
    ensures r.Some? ==> r.value < |xs| && p(xs[r.value])
    ensures r.Some? ==> forall k :: 0 <= k < r.value ==> !p(xs[k])
    ensures r.None? ==> forall k :: 0 <= k < |xs| ==> !p(xs[k])
  {
    if xs == [] then None
    else if p(xs[0]) then Some(0)
    else
      match First(xs[1..], p)
      case None => None
      case Some(k) => Some(k + 1)
  }

  /** `get_user_by_login`. */
  function FindUser(users: seq<User>, login: Login): (r: Option<nat>)
    ensures r.Some? ==> r.value < |users| && users[r.value].login == login
    ensures r.None? ==> forall k :: 0 <= k < |users| ==> users[k].login != login
  {
    First(users, (u: User) => u.login == login)
  }

  /** `get_post_by_id`. */
  function FindPost(posts: seq<Post>, id: string): (r: Option<nat>)
    ensures r.Some? ==> r.value < |posts| && posts[r.value].id == id
    ensures r.Some? ==> forall k :: 0 <= k < r.value ==> posts[k].id != id
    ensures r.None? ==> forall k :: 0 <= k < |posts| ==> posts[k].id != id
  {
    First(posts, (p: Post) => p.id == id)
  }

  /** `get_friend_by_login`: the edge `login -> friend`. */
  function FindEdge(edges: seq<FriendEdge>, login: Login, friend: Login): (r: Option<nat>)
    ensures r.Some? ==> r.value < |edges| && edges[r.value].login == login && edges[r.value].friend == friend
    ensures r.None? ==> forall k :: 0 <= k < |edges| ==> !(edges[k].login == login && edges[k].friend == friend)
  {
    First(edges, (e: FriendEdge) => e.login == login && e.friend == friend)
  }

  /** `get_mark_for_post`: the mark of `login` on post `postId`. */
  function FindMark(marks: seq<Mark>, postId: string, login: Login): (r: Option<nat>)
    ensures r.Some? ==> r.value < |marks| && marks[r.value].postId == postId && marks[r.value].login == login
    ensures r.Some? ==> forall k :: 0 <= k < r.value ==> !(marks[k].postId == postId && marks[k].login == login)
    ensures r.None? ==> forall k :: 0 <= k < |marks| ==> !(marks[k].postId == postId && marks[k].login == login)
  {
    First(marks, (m: Mark) => m.postId == postId && m.login == login)
  }

  predicate HasUser(users: seq<User>, login: Login) {
    exists k :: 0 <= k < |users| && users[k].login == login
  }

  predicate HasPost(posts: seq<Post>, id: string) {
    exists k :: 0 <= k < |posts| && posts[k].id == id
  }

  /** `get_friends_by_login`: the edges `owner` has added, in table order. */
  function FriendsOf(edges: seq<FriendEdge>, owner: Login): (r: seq<FriendEdge>)
    ensures forall e :: e in r <==> e in edges && e.login == owner
    ensures forall e {:trigger multiset(r)[e]} :: multiset(r)[e] == if e.login == owner then multiset(edges)[e] else 0
  {
    if edges == [] then []
    else
      assert edges == [edges[0]] + edges[1..];
      (if edges[0].login == owner then [edges[0]] else []) + FriendsOf(edges[1..], owner)
  }

  /** `get_posts_by_login`: the posts of `author`, in table order. */
  function PostsBy(posts: seq<Post>, author: Login): (r: seq<Post>)
    ensures forall p :: p in r <==> p in posts && p.author == author
    ensures forall p {:trigger multiset(r)[p]} :: multiset(r)[p] == if p.author == author then multiset(posts)[p] else 0
  {
    if posts == [] then []
    else
      assert posts == [posts[0]] + posts[1..];
      (if posts[0].author == author then [posts[0]] else []) + PostsBy(posts[1..], author)
  }

  // ---------------------------------------------------------------------
  // The store invariant: what the handlers keep true of every store they
  // produce, and what the unique constraints and `one()` calls rely on.

  /** Logins, emails and phones that are present are unique. */
  predicate UsersUnique(users: seq<User>) {
    forall i, j :: 0 <= i < j < |users| ==>
      && users[i].login != users[j].login
      && users[i].email != users[j].email
      && (users[i].phone.Some? ==> users[i].phone != users[j].phone)
  }

  /** Every token belongs to a registered user. */
  predicate TokensOwned(s: Store) {
    forall t :: t in s.tokens ==> HasUser(s.users, s.tokens[t].login)
  }

  /** Every post has a registered author; post ids are unique. */
  predicate PostsWellFormed(s: Store) {
    && (forall i :: 0 <= i < |s.posts| ==> HasUser(s.users, s.posts[i].author))
    && (forall i, j :: 0 <= i < j < |s.posts| ==> s.posts[i].id != s.posts[j].id)
  }

  /** Edges join registered users; there is at most one edge per ordered pair. */
  predicate EdgesWellFormed(s: Store) {
    && (forall i :: 0 <= i < |s.friends| ==>
          HasUser(s.users, s.friends[i].login) && HasUser(s.users, s.friends[i].friend))
    && (forall i, j :: 0 <= i < j < |s.friends| ==>
          !(s.friends[i].login == s.friends[j].login && s.friends[i].friend == s.friends[j].friend))
  }

  /** Marks refer to existing posts; at most one mark per (post, login). */
  predicate MarksWellFormed(s: Store) {
    && (forall i :: 0 <= i < |s.marks| ==> HasPost(s.posts, s.marks[i].postId))
    && (forall i, j :: 0 <= i < j < |s.marks| ==>
          !(s.marks[i].postId == s.marks[j].postId && s.marks[i].login == s.marks[j].login))
  }

  /** How many marks on post `postId` have `liked == liked`. */
  function CountMarks(marks: seq<Mark>, postId: string, liked: bool): nat {
    if marks == [] then 0
    else
      CountMarks(marks[..|marks| - 1], postId, liked)
      + (if marks[|marks| - 1].postId == postId && marks[|marks| - 1].liked == liked then 1 else 0)
  }

  /** Each post's counters are the numbers of likes and dislikes recorded
      against it. */
  predicate CountersAgree(posts: seq<Post>, marks: seq<Mark>) {
    forall i :: 0 <= i < |posts| ==>
      && posts[i].likesCount == CountMarks(marks, posts[i].id, true)
      && posts[i].dislikesCount == CountMarks(marks, posts[i].id, false)
  }

  predicate Valid(s: Store) {
    && UsersUnique(s.users)
    && TokensOwned(s)
    && PostsWellFormed(s)
    && EdgesWellFormed(s)
    && MarksWellFormed(s)
    && CountersAgree(s.posts, s.marks)
  }

  // ---------------------------------------------------------------------
  // crud.py transitions.

  function NoneIfEmpty(v: Option<string>): Option<string> {
    if v == Some("") then None else v
  }

  /** `update_user_by_login`: overwrite the fields that were sent, then
      turn a stored empty image or phone into `None`. */
  function UpdateUser(u: User, d: ProfileUpdate): (r: User)
    ensures r.login == u.login && r.email == u.email && r.password == u.password
    ensures r.countryCode == (if d.countryCode.Some? then d.countryCode.value else u.countryCode)
    ensures r.isPublic == (if d.isPublic.Some? then d.isPublic.value else u.isPublic)
    ensures r.image != Some("") && r.phone != Some("")
    ensures d.image.Some? && d.image.value != "" ==> r.image == d.image
    ensures d.image.None? && u.image != Some("") ==> r.image == u.image
    ensures d.phone.Some? && d.phone.value != "" ==> r.phone == d.phone
    ensures d.phone.None? && u.phone != Some("") ==> r.phone == u.phone
    ensures d.image == Some("") || (d.image.None? && u.image == Some("")) ==> r.image.None?
    ensures d.phone == Some("") || (d.phone.None? && u.phone == Some("")) ==> r.phone.None?
  {
    var countryCode := if d.countryCode.Some? then d.countryCode.value else u.countryCode;
    var isPublic := if d.isPublic.Some? then d.isPublic.value else u.isPublic;
    var image := NoneIfEmpty(if d.image.Some? then d.image else u.image);
    var phone := NoneIfEmpty(if d.phone.Some? then d.phone else u.phone);
    u.(countryCode := countryCode, isPublic := isPublic, image := image, phone := phone)
  }

  /** Sending the same update twice has the effect of sending it once. */
  lemma UpdateUserIdempotent(u: User, d: ProfileUpdate)
    ensures UpdateUser(UpdateUser(u, d), d) == UpdateUser(u, d)
  {
  }

  /** `update_password_by_login`: store the new digest, nothing else. */
  function SetPassword(u: User, digest: string): (r: User)
    ensures r.password == digest
    ensures r.(password := u.password) == u
  {
    u.(password := digest)
  }

  /** Adds `dl` to the likes and `dd` to the dislikes of the post `id`. */
  function Adjust(posts: seq<Post>, id: string, dl: int, dd: int): (r: seq<Post>)
    ensures |r| == |posts|
    ensures forall k :: 0 <= k < |r| ==> r[k].id == posts[k].id
    ensures forall k :: 0 <= k < |r| ==>
      r[k].(likesCount := posts[k].likesCount, dislikesCount := posts[k].dislikesCount) == posts[k]
  {
    seq(|posts|, k requires 0 <= k < |posts| =>
      if posts[k].id == id
      then posts[k].(likesCount := posts[k].likesCount + dl,
                     dislikesCount := posts[k].dislikesCount + dd)
      else posts[k])
  }

  /** `increment_like`, `decrement_like`, `increment_dislike`, `decrement_dislike`. */
  function IncrementLike(posts: seq<Post>, id: string): seq<Post> { Adjust(posts, id, 1, 0) }
  function DecrementLike(posts: seq<Post>, id: string): seq<Post> { Adjust(posts, id, -1, 0) }
  function IncrementDislike(posts: seq<Post>, id: string): seq<Post> { Adjust(posts, id, 0, 1) }
  function DecrementDislike(posts: seq<Post>, id: string): seq<Post> { Adjust(posts, id, 0, -1) }

  /** Each counter step changes one counter of one post by exactly one and
      leaves every other post and field alone. */
  lemma CounterStepsExact(posts: seq<Post>, i: nat)
    requires i < |posts|
    requires forall j :: 0 <= j < |posts| && j != i ==> posts[j].id != posts[i].id
    ensures var id := posts[i].id;
      && (forall j :: 0 <= j < |posts| && j != i ==>
            IncrementLike(posts, id)[j] == posts[j] && DecrementLike(posts, id)[j] == posts[j]
            && IncrementDislike(posts, id)[j] == posts[j] && DecrementDislike(posts, id)[j] == posts[j])
      && IncrementLike(posts, id)[i] == posts[i].(likesCount := posts[i].likesCount + 1)
      && DecrementLike(posts, id)[i] == posts[i].(likesCount := posts[i].likesCount - 1)
      && IncrementDislike(posts, id)[i] == posts[i].(dislikesCount := posts[i].dislikesCount + 1)
      && DecrementDislike(posts, id)[i] == posts[i].(dislikesCount := posts[i].dislikesCount - 1)
  {
  }

  /** `change_mark`: negate `liked` of the mark of `login` on `postId`. */
  function ChangeMark(marks: seq<Mark>, postId: string, login: Login): (r: seq<Mark>)
    requires FindMark(marks, postId, login).Some?
    ensures |r| == |marks|
    ensures var j := FindMark(marks, postId, login).value;
      && r[j] == marks[j].(liked := !marks[j].liked)
      && forall k :: 0 <= k < |marks| && k != j ==> r[k] == marks[k]
  {
    var j := FindMark(marks, postId, login).value;
    marks[j := marks[j].(liked := !marks[j].liked)]
  }

  /** `delete_tokens_by_login`: drop every token of `login`, keep the rest. */
  function DeleteTokensByLogin(tokens: map<string, Token>, login: Login): (r: map<string, Token>)
    ensures forall t :: t in r <==> t in tokens && tokens[t].login != login
    ensures forall t :: t in r ==> r[t] == tokens[t]
  {
    map t | t in tokens && tokens[t].login != login :: tokens[t]
  }
}

=== FILE: validators.dfy ===
/**
 * validators.py: the shape checks on request fields, and the views of a
 * user that the profile endpoints return. Character classes are ASCII:
 * `str.isdigit` and the regex class `\d` also accept other Unicode digits,
 * which this model leaves out.
 */
module Validators {
  import opened Outcomes
  import opened Store

  predicate IsDigit(c: char) { '0' <= c <= '9' }
  predicate IsLower(c: char) { 'a' <= c <= 'z' }
  predicate IsUpper(c: char) { 'A' <= c <= 'Z' }
  predicate IsLetter(c: char) { IsLower(c) || IsUpper(c) }

  /** The class `[a-zA-Z0-9-]`. */
  predicate IsLoginChar(c: char) { IsLetter(c) || IsDigit(c) || c == '-' }

  /** `any(p(c) for c in s)`. */
  function AnyChar(s: string, p: char -> bool): (r: bool)
    ensures r <==> exists i :: 0 <= i < |s| && p(s[i])
  {
    if s == [] then false
    else
      assert forall i :: 1 <= i < |s| ==> s[i] == s[1..][i - 1];
      p(s[0]) || AnyChar(s[1..], p)
  }

  /** `fullmatch(r'[C]+', s) is not None` for the character class `inClass`. */
  function FullMatchPlus(s: string, inClass: char -> bool): (r: bool)
    ensures r <==> |s| > 0 && forall i :: 0 <= i < |s| ==> inClass(s[i])
  {
    |s| > 0 && !AnyChar(s, c => !inClass(c))
  }

  /** `validate_login`. */
  function ValidLogin(login: string): (r: bool)
    ensures r <==> 1 <= |login| <= 30 && forall i :: 0 <= i < |login| ==> IsLoginChar(login[i])
  {
    if |login| > 30 || |login| == 0 then false
    else FullMatchPlus(login, IsLoginChar)
  }

  /** `validate_password`: 6 to 100 characters with a digit, a lower-case
      and an upper-case letter. */
  function ValidPassword(password: string): (r: bool)
    ensures r <==>
      && 6 <= |password| <= 100
      && (exists i :: 0 <= i < |password| && IsDigit(password[i]))
      && (exists i :: 0 <= i < |password| && IsLower(password[i]))
      && (exists i :: 0 <= i < |password| && IsUpper(password[i]))
  {
    if |password| > 100 || |password| < 6 then false
    else if !AnyChar(password, IsDigit) then false
    else if !AnyChar(password, IsLower) then false
    else AnyChar(password, IsUpper)
  }

  /** `validate_email`: only the length is checked. */
  function ValidEmail(email: string): (r: bool)
    ensures r <==> 1 <= |email| <= 50
  {
    !(|email| > 50 || |email| == 0)
  }

  /** `validate_countryCode`: the shape of an ISO 3166-1 alpha-2 code, two
      ASCII letters of either case; whether such a country exists is not
      checked here. */
  function ValidCountryCode(code: string): (r: bool)
    ensures r <==> |code| == 2 && IsLetter(code[0]) && IsLetter(code[1])
  {
    if |code| != 2 then false
    else FullMatchPlus(code, IsLetter)
  }

  /** `validate_phone`: empty, or `+` then at least one digit, at most 20
      characters in all. */
  function ValidPhone(phone: string): (r: bool)
    ensures r <==>
      || phone == ""
      || (2 <= |phone| <= 20 && phone[0] == '+' && forall i :: 1 <= i < |phone| ==> IsDigit(phone[i]))
  {
    if phone == "" then true
    else if !(phone[0] == '+' && FullMatchPlus(phone[1..], IsDigit)) then false
    else |phone| <= 20
  }

  /** `validate_image`: empty, or at most 200 characters. */
  function ValidImage(image: string): (r: bool)
    ensures r <==> |image| <= 200
  {
    if image == "" then true
    else |image| <= 200
  }

  /** `validate_limit`. */
  function ValidLimit(limit: int): (r: bool)
    ensures r <==> 0 <= limit <= 50
  {
    0 <= limit <= 50
  }

  /** `validate_offset`. */
  function ValidOffset(offset: int): (r: bool)
    ensures r <==> offset >= 0
  {
    !(offset < 0)
  }

  /** `validate_content`. */
  function ValidContent(content: string): (r: bool)
    ensures r <==> 1 <= |content| <= 1000
  {
    !(|content| > 1000 || |content| == 0)
  }

  /** `validate_tags`: rejects the list when any tag is empty or longer
      than 20 characters, so an empty list is valid. */
  function ValidTags(tags: seq<string>): (r: bool)
    ensures r <==> forall i :: 0 <= i < |tags| ==> 1 <= |tags[i]| <= 20
  {
    if tags == [] then true
    else
      assert forall i :: 1 <= i < |tags| ==> tags[i] == tags[1..][i - 1];
      !(|tags[0]| > 20 || |tags[0]| == 0) && ValidTags(tags[1..])
  }

  /** `validate_phone` and `validate_image` on an optional field: `None`
      passes the first test (`not phone`). */
  predicate ValidOptional(field: Option<string>, valid: string -> bool) {
    field.None? || valid(field.value)
  }

  /** `validate_data`: the registration data passes all six field checks. */
  function ValidData(u: User): (r: bool)
    ensures r <==>
      && ValidLogin(u.login) && ValidEmail(u.email) && ValidPassword(u.password)
      && ValidCountryCode(u.countryCode)
      && (u.phone.None? || ValidPhone(u.phone.value))
      && (u.image.None? || ValidImage(u.image.value))
  {
    if !ValidLogin(u.login) then false
    else if !ValidEmail(u.email) then false
    else if !ValidPassword(u.password) then false
    else if !ValidCountryCode(u.countryCode) then false
    else if !ValidOptional(u.phone, ValidPhone) then false
    else ValidOptional(u.image, ValidImage)
  }

  /** `validate_update_profile`: only the fields that were sent are
      checked; `isPublic` never is. */
  function ValidUpdateProfile(d: ProfileUpdate): (r: bool)
    ensures r <==>
      && (d.countryCode.Some? ==> ValidCountryCode(d.countryCode.value))
      && (d.phone.Some? ==> ValidPhone(d.phone.value))
      && (d.image.Some? ==> ValidImage(d.image.value))
  {
    if d.countryCode.Some? && !ValidCountryCode(d.countryCode.value) then false
    else if d.phone.Some? && !ValidPhone(d.phone.value) then false
    else if d.image.Some? && !ValidImage(d.image.value) then false
    else true
  }

  /**
   * The four response shapes of a user (`UserProfile`,
   * `UserProfileWithoutImage`, `UserProfileWithoutPhone`,
   * `UserProfileWithoutImageAndPhone`). None of them has a password.
   */
  datatype UserView =
    | Full(login: Login, email: string, countryCode: string, isPublic: bool, phone: string, image: string)
    | WithoutImage(login: Login, email: string, countryCode: string, isPublic: bool, phone: string)
    | WithoutPhone(login: Login, email: string, countryCode: string, isPublic: bool, image: string)
    | WithoutImageAndPhone(login: Login, email: string, countryCode: string, isPublic: bool)
  {
    function Phone(): Option<string> {
      if Full? || WithoutImage? then Some(phone) else None
    }

    function Image(): Option<string> {
      if Full? || WithoutPhone? then Some(image) else None
    }
  }

  /** The registration response `Profile(profile=...)`. */
  datatype Profile = Profile(profile: UserView)

  /** `validate_user`: the public view of a user. It carries the phone
      exactly when the user has one, the image exactly when the user has
      one, and every other field except the password. */
  function ViewOf(u: User): (r: UserView)
    ensures r.login == u.login && r.email == u.email
    ensures r.countryCode == u.countryCode && r.isPublic == u.isPublic
    ensures r.Phone() == u.phone && r.Image() == u.image
  {
    if u.image.None? && u.phone.None? then
      WithoutImageAndPhone(u.login, u.email, u.countryCode, u.isPublic)
    else if u.image.None? then
      WithoutImage(u.login, u.email, u.countryCode, u.isPublic, u.phone.value)
    else if u.phone.None? then
      WithoutPhone(u.login, u.email, u.countryCode, u.isPublic, u.image.value)
    else
      Full(u.login, u.email, u.countryCode, u.isPublic, u.phone.value, u.image.value)
  }

  /** `validate_profile`: the same view wrapped as `Profile`. */
  function ProfileOf(u: User): (r: Profile)
    ensures r.profile.login == u.login && r.profile.email == u.email
    ensures r.profile.countryCode == u.countryCode && r.profile.isPublic == u.isPublic
    ensures r.profile.Phone() == u.phone && r.profile.Image() == u.image
  {
    Profile(ViewOf(u))
  }

  /** A user rebuilt from its view and a password. */
  function Restore(v: UserView, password: string): User {
    User(v.login, password, v.email, v.countryCode, v.isPublic, v.Phone(), v.Image())
  }

  /** The view loses the password and nothing else. */
  lemma ViewLosesOnlyPassword(u: User)
    ensures Restore(ViewOf(u), u.password) == u
  {
  }

  /** Two users that differ only in the password have the same view. */
  lemma ViewHidesPassword(u: User, password: string)
    ensures ViewOf(u.(password := password)) == ViewOf(u)
  {
  }
}

=== FILE: visibility.dfy ===
/**
 * Who may see whom. main.py repeats the same three-way test in the profile,
 * post, feed and reaction handlers: the viewer is the target, or the
 * target is public, or the target has listed the viewer as a friend. Here
 * the test is one predicate, `CanView`, and each handler is proved to
 * grant access exactly when it holds.
 */
module Visibility {
  import opened Outcomes
  import opened Store
  import opened Session
  import Validators

  /** `owner` has listed `friend`: an edge owner -> friend exists. */
  predicate Listed(edges: seq<FriendEdge>, owner: Login, friend: Login) {
    exists i :: 0 <= i < |edges| && edges[i].login == owner && edges[i].friend == friend
  }

  /** The access rule: self, public target, or an edge target -> viewer. */
  predicate CanView(s: Store, viewer: Login, target: User) {
    viewer == target.login || target.isPublic || Listed(s.friends, target.login, viewer)
  }

  /** The handlers' scan `any(friend.friend == viewer for friend in edges)`. */
  function AnyFriendIs(edges: seq<FriendEdge>, viewer: Login): (r: bool)
    ensures r <==> exists e :: e in edges && e.friend == viewer
  {
    if edges == [] then false
    else
      assert edges == [edges[0]] + edges[1..];
      edges[0].friend == viewer || AnyFriendIs(edges[1..], viewer)
  }

  /** Scanning the owner's friend list finds the viewer exactly when the
      owner has listed the viewer. */
  lemma ScanIsListed(edges: seq<FriendEdge>, owner: Login, viewer: Login)
    ensures AnyFriendIs(FriendsOf(edges, owner), viewer) <==> Listed(edges, owner, viewer)
  {
    if Listed(edges, owner, viewer) {
      var i :| 0 <= i < |edges| && edges[i].login == owner && edges[i].friend == viewer;
      assert edges[i] in FriendsOf(edges, owner);
    }
  }

  /** The branch each handler takes once the target is known, as written:
      self, then a private target's friend list, then public. */
  function Permits(s: Store, viewer: Login, target: User): (r: bool)
    ensures r <==> CanView(s, viewer, target)
  {
    ScanIsListed(s.friends, target.login, viewer);
    if viewer == target.login then true
    else if !target.isPublic then AnyFriendIs(FriendsOf(s.friends, target.login), viewer)
    else true
  }

  /** Direction matters: the viewer listing a private target grants
      nothing; only the target listing the viewer does. */
  lemma OnlyTargetsEdgeCounts(s: Store, viewer: Login, target: User)
    requires viewer != target.login && !target.isPublic
    requires forall i :: 0 <= i < |s.friends| ==> s.friends[i].login != target.login
    ensures !CanView(s, viewer, target)
    ensures CanView(s.(friends := s.friends + [FriendEdge(target.login, viewer, 0)]), viewer, target)
  {
    var s' := s.(friends := s.friends + [FriendEdge(target.login, viewer, 0)]);
    assert s'.friends[|s.friends|] == FriendEdge(target.login, viewer, 0);
  }

  /** The user with this login, if registered. */
  function UserNamed(s: Store, login: Login): (r: Option<User>)
    ensures r.Some? ==> r.value.login == login && r.value in s.users
    ensures r.None? <==> !HasUser(s.users, login)
  {
    match FindUser(s.users, login)
    case None => None
    case Some(i) => Some(s.users[i])
  }

  /**
   * `get_profile`: an unknown user and a hidden one get the same 403. The
   * viewer's own profile is answered before the lookup result is checked,
   * so a session whose user is gone crashes; a valid store has none.
   */
  function GetProfile(header: Option<string>, login: Login, s: Store, now: int): (r: Reply<Validators.UserView>)
    ensures var g := Authenticate(header, s, now);
      g.Refuse? ==> r == Reply(Denied(), g.store)
    ensures var g := Authenticate(header, s, now);
      g.Admit? ==>
        && r.store == s
        && (r.out.Ok? <==> UserNamed(s, login).Some? && CanView(s, g.login, UserNamed(s, login).value))
        && (r.out.Ok? ==> r.out.value == Validators.ViewOf(UserNamed(s, login).value))
        && (r.out.Fail? ==> r.out == Fail(Forbidden, InvalidData))
        && (r.out.Crash? <==> login == g.login && UserNamed(s, login).None?)
    ensures Valid(s) ==> !r.out.Crash? && Valid(r.store)
  {
    AuthenticateKeepsValid(header, s, now);
    match Authenticate(header, s, now)
    case Refuse(s') => Reply(Denied(), s')
    case Admit(viewer) =>
      var user := UserNamed(s, login);
      if login == viewer then
        if user.None? then Reply(Crash, s) else Reply(Ok(Validators.ViewOf(user.value)), s)
      else if user.None? then Reply(Fail(Forbidden, InvalidData), s)
      else if !user.value.isPublic then
        ScanIsListed(s.friends, user.value.login, viewer);
        if AnyFriendIs(FriendsOf(s.friends, user.value.login), viewer)
        then Reply(Ok(Validators.ViewOf(user.value)), s)
        else Reply(Fail(Forbidden, InvalidData), s)
      else Reply(Ok(Validators.ViewOf(user.value)), s)
  }

  /** The author of the post with this id, if both exist. */
  function AuthorOf(s: Store, postId: string): Option<User> {
    match FindPost(s.posts, postId)
    case None => None
    case Some(i) => UserNamed(s, s.posts[i].author)
  }

  /** `get_post`: an unknown post and a hidden one get the same 404. */
  function GetPost(header: Option<string>, postId: string, s: Store, now: int): (r: Reply<Post>)
    ensures var g := Authenticate(header, s, now);
      g.Refuse? ==> r == Reply(Denied(), g.store)
    ensures var g := Authenticate(header, s, now);
      g.Admit? ==>
        && r.store == s
        && (FindPost(s.posts, postId).None? ==> r.out == Fail(NotFound, InvalidData))
        && (r.out.Crash? <==> FindPost(s.posts, postId).Some? && AuthorOf(s, postId).None?)
        && (AuthorOf(s, postId).Some? ==>
              (r.out.Ok? <==> CanView(s, g.login, AuthorOf(s, postId).value)))
        && (r.out.Ok? ==> r.out.value == s.posts[FindPost(s.posts, postId).value])
        && (r.out.Fail? ==> r.out == Fail(NotFound, InvalidData))
    ensures Valid(s) ==> !r.out.Crash? && Valid(r.store)
  {
    AuthenticateKeepsValid(header, s, now);
    match Authenticate(header, s, now)
    case Refuse(s') => Reply(Denied(), s')
    case Admit(viewer) =>
      match FindPost(s.posts, postId)
      case None => Reply(Fail(NotFound, InvalidData), s)
      case Some(i) =>
        match UserNamed(s, s.posts[i].author)
        case None => Reply(Crash, s)
        case Some(author) =>
          if Permits(s, viewer, author) then Reply(Ok(s.posts[i]), s)
          else Reply(Fail(NotFound, InvalidData), s)
  }
}
